=== FILE: README.md ===
# Question-bank text parser, modelled in Dafny

`py-timuToJson` turns the text of an exam paper into a JSON question bank.
The paper has three headed parts:
- true/false questions ("一、判断题");
- single-choice questions ("二、…单选题…");
- multiple-choice questions ("三、…多选题…").

The pipeline works in these steps:
1. Cut out each part between its heading and the next heading (`find_section`).
2. Split a part at its question numbers (`1、`, `2.`, `3．`).
3. For a choice question, take the answer from the last parenthesised letter annotation `（ B ）` and cut it out of the block (`extract_answer`).
4. Split the rest at the option labels `A.`, `B、`, `Ｃ．` (`split_options`).
5. Build fixed-shape records `{id, title, type, option, answer, analysis}` (`parse_judge_section` and `parse_choice_section`).

The pipeline exists in two near-identical copies:
- `pdf_to_json.py` passes titles and options through `normalize_text`, which collapses whitespace and removes spaces between CJK ideographs.
- `parse_choice_111.py` only strips titles and keeps the options as they are.

The model writes the pipeline once and makes the difference a switch, `Items.Variant = Pdf | PlainText`.

Each regular expression is modelled two ways:
- an anchored matcher, telling what the pattern matches when tried at a position;
- a generic left-to-right scan, `Scan.FindIter`, with the semantics of `re.finditer` and `re.split`.

Lemmas then show that the positions the scan reports are exactly the positions named by a plain predicate. For example, question numbers are the maximal runs of digits followed by `、`, `.` or `．`.

Modules, in dependency order:
- `Wrappers`: the `Option` type.
- `Chars`: character classes and `normalize_letter`.
- `Strs`: `str.find`, `strip` and `lstrip`.
- `Scan`: `finditer`.
- `Patterns`: the four patterns.
- `Normalize`: `normalize_text`.
- `Sections`: `find_section`.
- `Answers`: `extract_answer`.
- `Options`: `split_options`.
- `Items`: records, ids and the two-copy switch.
- `Judge` and `Choice`: the two section parsers.
- `Convert`: the pure part of `main`.

A loop that builds records and skips some with `continue` is modelled as a sequence of candidates, one `Option<Item>` per marker. The loop's result is the sequence of the candidates' values (`Items.Somes`). Lemmas about `Somes` give membership, order and counts.

## Model

| member | source | states |
|---|---|---|
| Strs.Find | py-timuToJson/pdf_to_json.py:24 | `str.find` returns the lowest occurrence at or after the start, or none when no occurrence exists there |
| Strs.Strip | py-timuToJson/pdf_to_json.py:116 | `strip()` cuts off only whitespace at both ends and leaves no whitespace at either end |
| Strs.TrimsUnique | py-timuToJson/pdf_to_json.py:116 | any cut that removes only whitespace and leaves stripped text is the one `strip()` makes |
| Strs.StripSurrounded | py-timuToJson/pdf_to_json.py:93 | stripping stripped text wrapped in whitespace gives that text back |
| Strs.StripEmpty | py-timuToJson/pdf_to_json.py:119 | a stripped text is empty exactly when the text was all whitespace |
| Strs.StripKeepsNonSpace | py-timuToJson/parse_choice_111.py:135 | stripping keeps every non-whitespace character, in order |
| Strs.LStripChars | py-timuToJson/pdf_to_json.py:117 | `lstrip(chars)` removes a prefix made only of those characters and stops at the first character outside them |
| Strs.NonSpaceAppend | py-timuToJson/pdf_to_json.py:56 | helper for the `normalize_text` proofs: the non-whitespace characters of a concatenation are those of the parts, in order |
| Strs.NonSpaceAllSpace | py-timuToJson/pdf_to_json.py:69 | helper for the whitespace skip in the answer loop: a text has no non-whitespace characters exactly when it is all whitespace |
| Scan.FindIter | py-timuToJson/pdf_to_json.py:62 | `finditer` reports non-overlapping matches, left to right, each one a match of the pattern at its start |
| Scan.ScanFindsEveryMatch | py-timuToJson/pdf_to_json.py:62 | for a pattern whose matches cannot overlap, `finditer` reports a match at every position where the pattern matches and nowhere else |
| Scan.PositionsComplete | py-timuToJson/pdf_to_json.py:110 | helper for the `finditer` lemmas: every position with the property is listed |
| Scan.NoneBetween | py-timuToJson/pdf_to_json.py:115 | helper for the marker lemmas: when the scan reports exactly the positions with a property, none lies between two consecutive matches or after the last |
| Scan.NoneBefore | py-timuToJson/pdf_to_json.py:63 | helper for the marker lemmas: when the scan reports exactly the positions with a property, none lies before the first match |
| Chars.NormalizeLetter | py-timuToJson/pdf_to_json.py:39-50 | full-width Ａ–Ｈ map to ASCII A–H (code point minus 0xFEE0); every other character is returned unchanged |
| Chars.AnswerLetterNormalizes | py-timuToJson/pdf_to_json.py:71-73 | every letter the annotation pattern accepts comes out of `normalize_letter` as A–H, so the `"A" <= ch <= "H"` filter never drops one |
| Chars.ClassesDisjoint | py-timuToJson/pdf_to_json.py:62 | answer letters and label separators are not whitespace or digits, and digits are not whitespace |
| Patterns.TailEnd | py-timuToJson/pdf_to_json.py:108 | what follows the digits in this pattern and in the one at line 135, `、（`, a mark and `）` or one of `、`, `.`, `．`, is non-empty, inside the text and holds no digit |
| Patterns.DigitLedEnd | py-timuToJson/pdf_to_json.py:135 | a match of this pattern, or of the one at line 108, tried at a position is the whole digit run there followed by a non-empty tail with no digit; when it fails at a digit, the tail is missing after the whole run |
| Patterns.ItemMatches | py-timuToJson/pdf_to_json.py:135-136 | the question-number matches are in text order, do not overlap, and each is digits followed by `、`, `.` or `．` |
| Patterns.ItemMatchesAreMarkers | py-timuToJson/pdf_to_json.py:135-136 | the reported matches start exactly at the maximal digit runs followed by a separator, wherever they stand in the text |
| Patterns.ItemMatchShape | py-timuToJson/pdf_to_json.py:139 | a match is its whole digit run and then one separator, so `group(1)` is the digits |
| Patterns.DigitLedScan | py-timuToJson/pdf_to_json.py:110 | scanning a digits-then-tail pattern reports exactly the starts of maximal digit runs followed by the tail |
| Patterns.NoStartInsideMatch | py-timuToJson/pdf_to_json.py:108 | no other digit-led match starts inside a match |
| Patterns.JudgeMatches | py-timuToJson/pdf_to_json.py:108-110 | the judge matches are in text order, do not overlap, and each is a digit-led match of `、（`, a mark and `）` |
| Patterns.JudgeMatchesAreMarkers | py-timuToJson/pdf_to_json.py:108-110 | the reported matches start exactly at maximal digit runs followed by `、（√）` or `、（×）` |
| Patterns.JudgeMatchShape | py-timuToJson/pdf_to_json.py:112-113 | a judge match is its whole digit run, then `、（`, the mark `√` or `×`, then `）`, so `group(1)` is the digits and `group(2)` the mark |
| Patterns.AnnotationsDisjoint | py-timuToJson/pdf_to_json.py:62 | two answer annotations never overlap, because the closing `）` is the first character outside the letter-and-space class |
| Patterns.AnnotationEnd | py-timuToJson/pdf_to_json.py:62 | a match is `（`, a non-empty run of letters A–H, Ａ–Ｈ and whitespace, then `）`, so `（）` never matches; at a `（` followed by such a character it fails exactly when the run is not closed by `）` |
| Patterns.AnnotationMatches | py-timuToJson/pdf_to_json.py:62 | the annotation matches are in text order, do not overlap, and each is a complete annotation match |
| Patterns.AnnotationMatchesAreAll | py-timuToJson/pdf_to_json.py:62 | `finditer` reports every position where an annotation starts |
| Patterns.LabelsDisjoint | py-timuToJson/pdf_to_json.py:84 | two option labels never overlap, because a separator is not a letter |
| Patterns.LabelMatches | py-timuToJson/pdf_to_json.py:84 | the label matches are two characters long, in order, and do not overlap |
| Patterns.LabelMatchesAreAll | py-timuToJson/pdf_to_json.py:84 | `re.split` cuts at every option label |
| Patterns.FirstLabel | py-timuToJson/pdf_to_json.py:80-82 | `re.search` finds the leftmost label, or none when the text holds no label |
| PatternExamples.NumberInsideOption | py-timuToJson/pdf_to_json.py:135 | in `1.x A.3.y` the `3.` of an option's text starts a new question |
| Normalize.Replace | py-timuToJson/pdf_to_json.py:55 | no NBSP and no CR is left; NBSP becomes a space, CR becomes LF, every other character stays where it was, unchanged |
| Normalize.ReplaceKeepsNonSpace | py-timuToJson/pdf_to_json.py:55 | step 1 keeps the non-whitespace characters |
| Normalize.CollapseKeepsNonSpace | py-timuToJson/pdf_to_json.py:56 | collapsing whitespace runs keeps the non-whitespace characters |
| Normalize.CollapseSpacing | py-timuToJson/pdf_to_json.py:56 | after `\s+` → `" "` the only whitespace is single plain spaces |
| Normalize.Collapse | py-timuToJson/pdf_to_json.py:56 | step 2 keeps the first character, as a space when it is whitespace, and never lengthens the text |
| Normalize.CollapseAppend | py-timuToJson/pdf_to_json.py:56 | step 2 never merges whitespace across a non-whitespace character, so it works on the two sides of one separately |
| Normalize.CollapseJoin | py-timuToJson/pdf_to_json.py:56 | between two stripped texts a whitespace run of any length and kind becomes exactly one space |
| Normalize.DropGaps | py-timuToJson/pdf_to_json.py:57 | deleting ideograph gaps keeps the first and last characters |
| Normalize.GapEnd | py-timuToJson/pdf_to_json.py:57 | a whitespace run is skipped only when an ideograph stands before it and another after it; a run after an ideograph that is kept is not followed by one |
| Normalize.DropGapsKeepsNonSpace | py-timuToJson/pdf_to_json.py:57 | deleting ideograph gaps keeps the non-whitespace characters |
| Normalize.DropGapsSpacing | py-timuToJson/pdf_to_json.py:57 | after step 4 no whitespace stands between two ideographs U+4E00–U+9FFF, and spaces stay single and plain |
| Normalize.DropGapsJoin | py-timuToJson/pdf_to_json.py:57 | one space between two texts is deleted exactly when the characters on both sides of it are ideographs, and each side is treated on its own |
| Normalize.NormalizeText | py-timuToJson/pdf_to_json.py:53-58 | the result has no NBSP or CR, no doubled whitespace, no leading or trailing whitespace and no whitespace between two ideographs, and it keeps the input's non-whitespace characters in order |
| Normalize.NormalizeJoin | py-timuToJson/pdf_to_json.py:53-58 | for stripped non-empty `a`, `b` and whitespace `w`, `normalize_text(a + w + b)` is `normalize_text(a)`, one space, `normalize_text(b)`, with no space when `a` ends and `b` starts with an ideograph |
| Normalize.NormalizeIdempotent | py-timuToJson/pdf_to_json.py:53-58 | normalizing twice is normalizing once |
| Normalize.NormalizeEmpty | py-timuToJson/pdf_to_json.py:53-58 | normalizing gives the empty text exactly when the input is all whitespace |
| Normalize.NormalizeStrip | py-timuToJson/pdf_to_json.py:53-58 | stripping before normalizing changes nothing |
| Normalize.NormalizeNoLabel | py-timuToJson/pdf_to_json.py:148 | normalizing text without an option label cannot create one |
| Normalize.StripNoLabel | py-timuToJson/pdf_to_json.py:93 | stripping text without an option label cannot create one |
| Sections.FirstMarker | py-timuToJson/pdf_to_json.py:22-27 | the start marker used is the first in list order that occurs anywhere in the text; all markers before it are absent |
| Sections.Candidates | py-timuToJson/pdf_to_json.py:30-34 | there is at most one candidate per end marker, each at or after the start and inside the text |
| Sections.SectionEnd | py-timuToJson/pdf_to_json.py:35 | the end is the end of the text or a candidate, and no candidate lies before it |
| Sections.SectionBounds | py-timuToJson/pdf_to_json.py:22-35 | there are no bounds exactly when no start marker occurs; otherwise the bounds lie inside the text in order |
| Sections.CandidatesAreOccurrences | py-timuToJson/pdf_to_json.py:30-34 | every end candidate is the first occurrence, at or after the start, of some end marker |
| Sections.OccurrencesAreCandidates | py-timuToJson/pdf_to_json.py:30-34 | every end marker occurring at or after the start contributes its first occurrence there |
| Sections.SeqMin | py-timuToJson/pdf_to_json.py:35 | `min` returns a candidate no greater than any other |
| Sections.FindSection | py-timuToJson/pdf_to_json.py:28-29 | the section is no longer than the text, and it is empty when no start marker occurs |
| Sections.SectionStart | py-timuToJson/pdf_to_json.py:22-29 | no section exactly when no start marker occurs; otherwise it starts right after the first occurrence of the first listed marker that occurs |
| Sections.SectionEndSpec | py-timuToJson/pdf_to_json.py:30-36 | no end marker begins inside the section, which stops at the end of the text or where an end marker begins |
| Sections.NoEndMarkers | py-timuToJson/parse_choice_111.py:17-23 | with no end markers the section runs to the end of the text |
| Sections.InSection | py-timuToJson/pdf_to_json.py:36 | an occurrence inside the returned section is an occurrence in the document within the section's bounds |
| Sections.SectionHasNoEndMarker | py-timuToJson/pdf_to_json.py:30-36 | the returned section text contains no end marker |
| Answers.LastAnnotation | py-timuToJson/pdf_to_json.py:62-65 | the annotation used is a complete `（…）` match inside the block |
| Answers.LastIsRightmost | py-timuToJson/pdf_to_json.py:62-65 | there is an annotation to use exactly when one occurs, and the one used is the rightmost |
| Answers.AnnotationShape | py-timuToJson/pdf_to_json.py:62 | the removed span starts with `（`, ends with `）` and holds only A–H, Ａ–Ｈ and whitespace between them |
| Answers.Group | py-timuToJson/pdf_to_json.py:66 | `group(1)` is a non-empty tail of the inside that drops only leading whitespace |
| Answers.GroupKeepsNonSpace | py-timuToJson/pdf_to_json.py:66 | `group(1)` holds every non-whitespace character of the annotation |
| Answers.Letters | py-timuToJson/pdf_to_json.py:72-73 | the loop's answer holds only ASCII A–H and is no longer than its input |
| Answers.LettersOfAnnotation | py-timuToJson/pdf_to_json.py:67-74 | on annotation text the loop keeps every non-whitespace character, mapped to A–H, in order, with duplicates |
| Answers.ExtractAnswer | py-timuToJson/pdf_to_json.py:61-76 | with no annotation: empty answer and the block unchanged; otherwise `cleaned` is the block with exactly the annotation span removed (length shrinks by the span), and the answer is A–H only |
| Answers.AnswerIsAnnotationLetters | py-timuToJson/pdf_to_json.py:66-74 | the answer is the last annotation's non-whitespace characters with Ａ–Ｈ mapped to A–H, in order, duplicates kept |
| Answers.AnswerEmpty | py-timuToJson/pdf_to_json.py:66-74 | the answer is empty exactly when there is no annotation or the last one is whitespace only, as in `（ ）` |
| Options.Pieces | py-timuToJson/pdf_to_json.py:84 | `re.split` with a capture group gives one more text piece than twice the number of labels |
| Options.PiecesJoin | py-timuToJson/pdf_to_json.py:84 | joined back together, the pieces of `re.split` give the split text, so nothing is lost or repeated |
| Options.Flush | py-timuToJson/pdf_to_json.py:92-95 | the options so far are kept; one more is added, the stripped pending text, exactly when a label was seen and that text is not only whitespace |
| Options.Step | py-timuToJson/pdf_to_json.py:88-99 | one part keeps the options so far and adds at most one; a label part becomes the current label with an empty pending text |
| Options.Run | py-timuToJson/pdf_to_json.py:88-99 | over the whole loop options are only appended, never changed or removed, at most one per part |
| Options.SplitOptions | py-timuToJson/pdf_to_json.py:80-82 | a block without any label has no options |
| Options.RunPieces | py-timuToJson/pdf_to_json.py:88-103 | the loop over the split pieces adds the text before the first label to the pending text and then keeps one stripped segment per label |
| Options.SplitOptionsSegments | py-timuToJson/pdf_to_json.py:79-104 | the options are the segments after each label of the text from the first label on, stripped, empty ones dropped, in text order; the label letters play no part |
| Options.Segments | py-timuToJson/pdf_to_json.py:84 | `re.split` yields exactly one segment after each label match |
| Options.KeepStripped | py-timuToJson/pdf_to_json.py:93-95 | keeping the non-empty stripped segments never adds one |
| Options.KeepStrippedGood | py-timuToJson/pdf_to_json.py:93-95 | every kept segment is non-empty, stripped and free of labels |
| Options.KeepStrippedAll | py-timuToJson/pdf_to_json.py:92-95 | when no segment strips to nothing, none is dropped |
| Options.SegmentsHaveNoLabel | py-timuToJson/pdf_to_json.py:84 | no segment between consecutive labels holds a label |
| Options.OptionsShape | py-timuToJson/pdf_to_json.py:79-104 | no label gives `[]`; otherwise every option is non-empty, stripped and free of labels, and there are at most as many options as labels |
| OptionsExamples.LabelsOnly | py-timuToJson/parse_choice_111.py:85-110 | `A.B.`, labels with nothing between them, gives no options |
| OptionsExamples.SkippedLabel | py-timuToJson/parse_choice_111.py:85-110 | `A.x C.y`, with `B` missing, gives `["x", "y"]`: the option after `C` moves into second place |
| Items.Finish | py-timuToJson/pdf_to_json.py:156 | a finished title is stripped, normalized in the normalizing copy, and keeps the non-whitespace characters |
| Items.FinishOptions | py-timuToJson/pdf_to_json.py:148 | the options keep their number and order, each keeps its non-whitespace characters; the stripping copy returns them unchanged, the normalizing copy normalizes each, and a stripped option is finished exactly as a title is |
| Items.NormalizeAll | py-timuToJson/pdf_to_json.py:148 | every option is normalized on its own, in place, and keeps its non-whitespace characters |
| Items.FinishEmpty | py-timuToJson/pdf_to_json.py:157 | a finished title is empty exactly when the text was all whitespace, in both copies |
| Items.FinishVariants | py-timuToJson/parse_choice_111.py:135 | the normalizing copy's title is `normalize_text` of the stripping copy's |
| Items.FinishNoLabel | py-timuToJson/pdf_to_json.py:156 | finishing a title without an option label cannot create one |
| Items.IdOfDigits | py-timuToJson/pdf_to_json.py:160 | the id is the prefix, the tag and then the question number, copied verbatim |
| Items.Somes | py-timuToJson/pdf_to_json.py:111-131 | the loop that skips with `continue` keeps no more records than it has candidates |
| Items.SomesAppend | py-timuToJson/pdf_to_json.py:130 | helper for the `continue` lemmas: the records kept from two runs of candidates are those of the first, then those of the second |
| Items.SomesMembers | py-timuToJson/pdf_to_json.py:119-130 | a record is kept exactly when some candidate holds it |
| Items.SomeIndex | py-timuToJson/pdf_to_json.py:111 | helper for the order lemmas: every kept record comes from a candidate at a definite position |
| Items.SomeIndexIncreasing | py-timuToJson/pdf_to_json.py:111 | kept records keep the order of their candidates |
| Items.SomesAll | py-timuToJson/pdf_to_json.py:111-131 | when no candidate is skipped, every candidate is kept |
| Items.SomesMap | py-timuToJson/pdf_to_json.py:111-131 | candidates that correspond one to one give kept records that correspond one to one, at the same positions |
| Judge.ParseJudgeSection | py-timuToJson/pdf_to_json.py:110-111 | there are at most as many judge records as judge markers |
| Judge.JudgeNumber | py-timuToJson/pdf_to_json.py:112 | the question number is the marker's whole digit run, copied verbatim, and is non-empty |
| Judge.JudgeTitle | py-timuToJson/pdf_to_json.py:116-118 | the title is empty exactly when nothing but whitespace is left after the strip and punctuation lstrip; it is stripped, normalized in the normalizing copy, and keeps the non-whitespace characters |
| Judge.JudgeRecord | py-timuToJson/pdf_to_json.py:121-129 | a record from digits and a title is a well-formed judge record with answer `A` exactly when the mark is `√` |
| Judge.JudgeCandidate | py-timuToJson/pdf_to_json.py:112-130 | a marker is skipped exactly when the text after it is only whitespace and leading punctuation; a kept one is a well-formed judge record |
| Judge.JudgeCandidateId | py-timuToJson/pdf_to_json.py:112-123 | a kept marker's id is the prefix, `-J` and the marker's digit run copied verbatim |
| Judge.JudgeCandidateTitle | py-timuToJson/pdf_to_json.py:115-124 | a kept marker's title is the text up to the next marker, stripped, cleared of leading punctuation and finished by the copy |
| Judge.JudgeCandidateAnswer | py-timuToJson/pdf_to_json.py:113-121 | a kept marker's answer is `A` exactly when its mark is `√` |
| Judge.JudgeItemsFrom | py-timuToJson/pdf_to_json.py:111-131 | the records are exactly the markers' candidates that were not skipped |
| Judge.JudgeOrder | py-timuToJson/pdf_to_json.py:111-131 | the records follow the order of their markers |
| Judge.JudgeItemsWellFormed | py-timuToJson/pdf_to_json.py:119-130 | every judge record has the fixed judge shape and an id `prefix-J` then digits |
| Judge.JudgeVariants | py-timuToJson/parse_choice_111.py:67-69 | both copies keep the same judge markers; the normalizing copy's title is `normalize_text` of the other's, and everything else is equal |
| Judge.JudgeSectionVariants | py-timuToJson/parse_choice_111.py:58-82 | on the same section both copies return as many judge records, in the same order, and differ only in the normalized title |
| Choice.ChoiceNumber | py-timuToJson/pdf_to_json.py:139 | the question number is the marker's whole digit run, copied verbatim, and is non-empty |
| Choice.ChoiceBlock | py-timuToJson/pdf_to_json.py:140-142 | a question's block is stripped text no longer than the section |
| Choice.Assemble | py-timuToJson/pdf_to_json.py:145-167 | after `extract_answer` the block is dropped exactly when it has no answer, no options or an all-whitespace title; a kept record has the section's type, the extracted answer and no analysis |
| Choice.ChoiceCandidate | py-timuToJson/pdf_to_json.py:139-167 | a question number's record, when kept, is a well-formed choice record for its section |
| Choice.Stem | py-timuToJson/pdf_to_json.py:151-155 | the title is the prefix before the first option label: it holds no label and stops at the end, or where the first label begins |
| Choice.ParseChoiceSection | py-timuToJson/pdf_to_json.py:136-138 | there are at most as many choice records as question numbers |
| Choice.FinishedOptionsGood | py-timuToJson/pdf_to_json.py:148 | every finished option is non-empty, stripped, label-free, and normalized in the normalizing copy |
| Choice.ChoiceSkipped | py-timuToJson/parse_choice_111.py:121-137 | a block is dropped exactly when it is empty, has no answer, has no options, or has an all-whitespace title |
| Choice.AssembleSkipped | py-timuToJson/pdf_to_json.py:145-158 | after `extract_answer` a block is dropped exactly when it has no answer, no options or an empty title |
| Choice.AssembleSpec | py-timuToJson/pdf_to_json.py:145-167 | a kept block gives the section's type, whatever the number of answer letters, its answer, its finished options and title, and id `prefix-{tag}{num}` |
| Choice.ChoiceCandidateSpec | py-timuToJson/pdf_to_json.py:138-167 | a kept question number gives a well-formed record made from its own block, with its number copied into the id |
| Choice.ChoiceItemsFrom | py-timuToJson/pdf_to_json.py:138-168 | the records are exactly the question numbers' candidates that were not skipped |
| Choice.ChoiceItemsWellFormed | py-timuToJson/pdf_to_json.py:159-167 | every choice record has a non-empty A–H answer, non-empty good options, a label-free non-empty title and the section's type and tag |
| Choice.ChoiceOrder | py-timuToJson/pdf_to_json.py:138-168 | the records follow the order of their question numbers |
| Choice.AssembleVariantsKept | py-timuToJson/parse_choice_111.py:124-137 | both copies drop the same blocks |
| Choice.AssembleVariants | py-timuToJson/parse_choice_111.py:127-135 | for a kept block the normalizing copy's title and options are `normalize_text` of the other's, and everything else is equal |
| Choice.ChoiceVariants | py-timuToJson/parse_choice_111.py:113-148 | both copies keep the same question numbers, with records related as above |
| Choice.ChoiceSectionVariants | py-timuToJson/parse_choice_111.py:113-148 | on the same section both copies return as many choice records, in the same order, differing only in normalized title and options |
| Convert.JudgeItems | py-timuToJson/parse_choice_111.py:187 | no judge section, no judge records; every judge record is well formed |
| Convert.ChoiceItems | py-timuToJson/parse_choice_111.py:188-193 | no section, no records; every record is well formed for its section |
| Convert.ParseDocument | py-timuToJson/parse_choice_111.py:172-193 | every judge record has type `judge` and tag `-J`, every single-choice record `single` and `-S`, every multiple-choice record `multi` and `-M` |
| Convert.AllItems | py-timuToJson/parse_choice_111.py:194 | the result holds the judge records, then the single-choice ones, then the multiple-choice ones, each list whole and in its own order |
| Convert.InGroupsUnique | py-timuToJson/parse_choice_111.py:194 | a list in that grouping is exactly the concatenation of the three lists, so the grouping pins the output |
| Convert.GroupsInOrder | py-timuToJson/parse_choice_111.py:194 | concatenating the lists puts judge records first, then single-choice, then multiple-choice ones |
| Convert.ConvertDocument | py-timuToJson/parse_choice_111.py:172-194 | the converted document is the parsed judge list, then the single-choice list, then the multiple-choice list, each whole and in order, every record with its list's type and id tag |
| Convert.NoMultiHeading | py-timuToJson/parse_choice_111.py:182-186 | when none of the three multiple-choice headings occurs, there is no multiple-choice section and no multiple-choice record |
| Convert.SingleStopsAtThird | py-timuToJson/parse_choice_111.py:177-181 | the single-choice section never contains `三、选择题` |
| Convert.MultiRunsToEnd | py-timuToJson/parse_choice_111.py:182-186 | the multiple-choice section runs to the end of the document |
| Convert.ConvertVariants | py-timuToJson/pdf_to_json.py:196-198 | on the same document both copies give the same three lists, differing only in normalized titles and options |

## Left out

- `read_pdf_text` and the `pypdf` import guard: the model takes the extracted text as its input string.
- argparse, reading and writing files, `json.dumps` and the printed counts in both `main` functions: this is input and output. `Convert.ConvertDocument` is the list that would be written.
- `tools/generate-datajs.js` and `service-worker.js`: file system, browser storage and network code, not part of the parser.
- Python's full Unicode `\d`: `Chars.IsDigit` accepts ASCII and full-width digits only. `Chars.IsSpace` is the `str.isspace` table.
- `str.upper()` in `extract_answer` is left out. It is the identity on the only characters that reach it, A–H and Ａ–Ｈ.
- `str(text or "")` in `normalize_text` is the identity on a string and is not modelled.
- Options.OptionsShape: the bound on the number of options counts the labels from the first label on. That is every label of the block, so the bound is the source's, but it is stated on the option text rather than on the whole block.
- Item markers are not anchored to line starts. `PatternExamples.NumberInsideOption` shows a digit and separator inside option text starting a new question, as the code does.

=== FILE: answers.dfy ===
/** `extract_answer`: find the last answer annotation `（…）` of a question
    block, read its letters, and cut it out of the block. */
module Answers {
  import opened Wrappers
  import opened Chars
  import opened Strs
  import opened Scan
  import opened Patterns

  /** `matches[-1]`: the last annotation `finditer` reports, if any. */
  function LastAnnotation(block: string): (r: Option<Span>)
    ensures r.Some? ==> r.value.start + 2 < r.value.end <= |block|
    ensures r.Some? ==> AnnotationEnd(block, r.value.start) == Some(r.value.end)
  {
    var ms := AnnotationMatches(block);
    if |ms| == 0 then None else Some(ms[|ms| - 1])
  }

  /** What stands between the parentheses of an annotation. */
  function Inside(block: string, sp: Span): string
    requires sp.start + 2 < sp.end <= |block|
  {
    block[sp.start + 1..sp.end - 1]
  }

  /** `m.group(1)` for the text `run` between the parentheses: the greedy
      leading `\s*` takes the whole leading whitespace run unless that would
      leave nothing for the `+` group, in which case it gives back one
      character. */
  function Group(run: string): (g: string)
    requires |run| > 0
    ensures 0 < |g| <= |run|
    ensures forall i :: 0 <= i < |g| ==> g[i] == run[|run| - |g| + i]
    ensures forall i :: 0 <= i < |run| - |g| ==> IsSpace(run[i])
  {
    var k := RunEnd(run, 0, IsSpace);
    if k == |run| then run[|run| - 1..] else run[k..]
  }

  /** The loop over `raw`: skip whitespace, map Ａ–Ｈ to A–H, keep what is
      then an ASCII A–H. */
  function Letters(raw: string): (r: string)
    ensures |r| <= |raw|
    ensures forall i :: 0 <= i < |r| ==> IsAsciiAH(r[i])
  {
    if |raw| == 0 then []
    else
      var rest := Letters(raw[1..]);
      if IsSpace(raw[0]) then rest
      else
        var ch := NormalizeLetter(raw[0]);
        if IsAsciiAH(ch) then [ch] + rest else rest
  }

  /** The answer and the block without its annotation. */
  datatype Extracted = Extracted(answer: string, cleaned: string)

  /** `extract_answer(block)`. */
  function ExtractAnswer(block: string): (r: Extracted)
    ensures forall i :: 0 <= i < |r.answer| ==> IsAsciiAH(r.answer[i])
    ensures LastAnnotation(block).None? ==> r == Extracted([], block)
    ensures LastAnnotation(block).Some? ==>
      var sp := LastAnnotation(block).value;
      && |r.cleaned| == |block| - (sp.end - sp.start)
      && r.cleaned[..sp.start] == block[..sp.start]
      && r.cleaned[sp.start..] == block[sp.end..]
  {
    match LastAnnotation(block)
    case None => Extracted([], block)
    case Some(sp) =>
      var answer := Letters(Group(Inside(block, sp)));
      var cleaned := block[..sp.start] + block[sp.end..];
      assert cleaned[..sp.start] == block[..sp.start];
      assert cleaned[sp.start..] == block[sp.end..];
      Extracted(answer, cleaned)
  }

  // ---------------------------------------------------------------------
  // Which annotation is used.
  // ---------------------------------------------------------------------

  /** There is an annotation to use exactly when the block holds one, and
      the one used is the rightmost: annotations never overlap, so
      `finditer` reports all of them. */
  lemma LastIsRightmost(block: string)
    ensures LastAnnotation(block).None? <==> forall q :: 0 <= q < |block| ==> !IsAnnotationAt(block, q)
    ensures LastAnnotation(block).Some? ==>
      var sp := LastAnnotation(block).value;
      && IsAnnotationAt(block, sp.start)
      && forall q :: sp.start < q < |block| ==> !IsAnnotationAt(block, q)
  {
    if LastAnnotation(block).None? {
      NoAnnotationAtAll(block);
    } else {
      NoAnnotationAfterLast(block);
      assert IsAnnotationAt(block, LastAnnotation(block).value.start);
    }
  }

  /** When `finditer` reports nothing, no position starts an annotation. */
  lemma NoAnnotationAtAll(block: string)
    requires LastAnnotation(block).None?
    ensures forall q :: 0 <= q < |block| ==> !IsAnnotationAt(block, q)
  {
    var ms := AnnotationMatches(block);
    AnnotationMatchesAreAll(block);
    forall q | 0 <= q < |block| ensures !IsAnnotationAt(block, q) {
      NoneBefore(ms, |block|, AnnotationStart(block), q);
      assert !AnnotationStart(block)(q);
    }
  }

  /** No annotation starts after the last one `finditer` reports. */
  lemma NoAnnotationAfterLast(block: string)
    requires LastAnnotation(block).Some?
    ensures forall q :: LastAnnotation(block).value.start < q < |block| ==> !IsAnnotationAt(block, q)
  {
    var ms := AnnotationMatches(block);
    AnnotationMatchesAreAll(block);
    var sp := ms[|ms| - 1];
    forall q | sp.start < q < |block| ensures !IsAnnotationAt(block, q) {
      NoneBetween(ms, |block|, AnnotationStart(block), |ms| - 1, q);
      assert !AnnotationStart(block)(q);
    }
  }

  /** The span cut out runs from a `（` to the first `）` after it, and
      everything between them is a letter A–H, Ａ–Ｈ or whitespace. */
  lemma AnnotationShape(block: string)
    requires LastAnnotation(block).Some?
    ensures var sp := LastAnnotation(block).value;
      && block[sp.start] == '（' && block[sp.end - 1] == '）'
      && forall i :: sp.start < i < sp.end - 1 ==> InAnnotation(block[i])
  {
  }

  // ---------------------------------------------------------------------
  // What the answer is.
  // ---------------------------------------------------------------------

  /** `normalize_letter` applied to every character. */
  function NormalizeLetters(s: string): (r: string)
    ensures |r| == |s| && forall i :: 0 <= i < |s| ==> r[i] == NormalizeLetter(s[i])
  {
    seq(|s|, i requires 0 <= i < |s| => NormalizeLetter(s[i]))
  }

  /** On the characters an annotation can hold the loop keeps every letter:
      the answer is the non-whitespace characters, normalized, in order and
      with repetitions. */
  lemma {:induction false} LettersOfAnnotation(raw: string)
    requires forall i :: 0 <= i < |raw| ==> InAnnotation(raw[i])
    ensures Letters(raw) == NormalizeLetters(NonSpace(raw))
    decreases |raw|
  {
    if |raw| > 0 {
      LettersOfAnnotation(raw[1..]);
      var tail := NonSpace(raw[1..]);
      assert NonSpace(raw) == (if IsSpace(raw[0]) then [] else [raw[0]]) + tail;
      if !IsSpace(raw[0]) {
        AnswerLetterNormalizes(raw[0]);
        assert NormalizeLetters([raw[0]] + tail) == [NormalizeLetter(raw[0])] + NormalizeLetters(tail);
      }
    }
  }

  /** The group only differs from the run by leading whitespace. */
  lemma GroupKeepsNonSpace(run: string)
    requires |run| > 0
    ensures NonSpace(Group(run)) == NonSpace(run)
  {
    var g := Group(run);
    var k := |run| - |g|;
    assert g == run[k..];
    NonSpaceDropSpaces(run, k);
  }

  /** The group is a part of the run, so it keeps the run's character class. */
  lemma GroupInAnnotation(run: string)
    requires |run| > 0 && forall i :: 0 <= i < |run| ==> InAnnotation(run[i])
    ensures forall i :: 0 <= i < |Group(run)| ==> InAnnotation(Group(run)[i])
  {
    var g := Group(run);
    SuffixKeeps(run, |run| - |g|, InAnnotation);
  }

  /** The answer is the annotation's non-whitespace characters with Ａ–Ｈ
      mapped to A–H: in annotation order, duplicates kept. */
  lemma AnswerIsAnnotationLetters(block: string)
    requires LastAnnotation(block).Some?
    ensures var sp := LastAnnotation(block).value;
      ExtractAnswer(block).answer == NormalizeLetters(NonSpace(Inside(block, sp)))
  {
    var sp := LastAnnotation(block).value;
    var run := Inside(block, sp);
    AnnotationShape(block);
    forall i | 0 <= i < |run| ensures InAnnotation(run[i]) {
      assert run[i] == block[sp.start + 1 + i];
    }
    GroupInAnnotation(run);
    LettersOfAnnotation(Group(run));
    GroupKeepsNonSpace(run);
  }

  /** The answer is empty exactly when there is no annotation or the last
      one holds only whitespace, as in `（ ）`. */
  lemma AnswerEmpty(block: string)
    ensures ExtractAnswer(block).answer == [] <==>
      (LastAnnotation(block).None? || AllSpace(Inside(block, LastAnnotation(block).value)))
  {
    if LastAnnotation(block).Some? {
      var run := Inside(block, LastAnnotation(block).value);
      AnswerIsAnnotationLetters(block);
      NonSpaceAllSpace(run);
    }
  }
}

=== FILE: chars.dfy ===
/** Character classes used by the question-bank parser.

    Each predicate is the class one of the source's regular expressions or
    string methods tests: `\s` / `str.isspace`, `\d`, `[A-HＡ-Ｈ]`,
    `[、\.．]`, `[一-鿿]`. */
module Chars {

  /** Python's `str.isspace()`, which is also what `\s` matches in a str
      pattern: the complete table of Unicode whitespace code points. */
  predicate IsSpace(c: char) {
    || c == ' '
    || ('\t' <= c <= '\r')                  // \t \n \v \f \r
    || ('\U{1C}' <= c <= '\U{1F}')          // information separators
    || c == '\U{85}' || c == '\U{A0}'       // NEL, no-break space
    || c == '\U{1680}'
    || ('\U{2000}' <= c <= '\U{200A}')
    || c == '\U{2028}' || c == '\U{2029}'
    || c == '\U{202F}' || c == '\U{205F}'
    || c == '\U{3000}'                      // ideographic space
  }

  /** The decimal digits `\d` matches: ASCII and full-width ones. */
  predicate IsDigit(c: char) {
    ('0' <= c <= '9') || ('\U{FF10}' <= c <= '\U{FF19}')
  }

  /** The CJK Unified Ideographs block U+4E00–U+9FFF. */
  predicate IsIdeograph(c: char) {
    '\U{4E00}' <= c <= '\U{9FFF}'
  }

  predicate IsAsciiAH(c: char) {
    'A' <= c <= 'H'
  }

  /** Full-width Ａ–Ｈ (U+FF21–U+FF28). */
  predicate IsWideAH(c: char) {
    '\U{FF21}' <= c <= '\U{FF28}'
  }

  /** The class `[A-HＡ-Ｈ]`. */
  predicate IsAnswerLetter(c: char) {
    IsAsciiAH(c) || IsWideAH(c)
  }

  /** The class `[、\.．]` that follows a question number or an option letter. */
  predicate IsLabelSep(c: char) {
    c == '、' || c == '.' || c == '．'
  }

  /** The two marks a judge question carries: `√` (true) and `×` (false). */
  predicate IsJudgeMark(c: char) {
    c == '√' || c == '×'
  }

  /** `normalize_letter`: full-width Ａ–Ｈ become ASCII A–H, every other
      character is returned as it is. */
  function NormalizeLetter(c: char): (r: char)
    ensures IsWideAH(c) ==> IsAsciiAH(r) && r as int == c as int - 0xFEE0
    ensures !IsWideAH(c) ==> r == c
  {
    match c
    case 'Ａ' => 'A'
    case 'Ｂ' => 'B'
    case 'Ｃ' => 'C'
    case 'Ｄ' => 'D'
    case 'Ｅ' => 'E'
    case 'Ｆ' => 'F'
    case 'Ｇ' => 'G'
    case 'Ｈ' => 'H'
    case _ => c
  }

  /** Every character of the answer class comes out of `NormalizeLetter` as
      an ASCII A–H, so the `"A" <= ch <= "H"` filter after it never drops one. */
  lemma AnswerLetterNormalizes(c: char)
    requires IsAnswerLetter(c)
    ensures IsAsciiAH(NormalizeLetter(c))
  {
  }

  /** None of the separator, mark or answer characters is whitespace, a digit or an ideograph. */
  lemma ClassesDisjoint(c: char)
    ensures IsAnswerLetter(c) ==> !IsSpace(c) && !IsDigit(c) && !IsIdeograph(c) && !IsLabelSep(c)
    ensures IsLabelSep(c) ==> !IsSpace(c) && !IsDigit(c) && !IsIdeograph(c)
    ensures IsDigit(c) ==> !IsSpace(c)
  {
  }
}

=== FILE: choice.dfy ===
/** `parse_choice_section`: one choice question per `N、`, `N.` or `N．`
    marker; the block up to the next marker holds the question text, the
    answer annotation and the options. */
module Choice {
  import opened Wrappers
  import opened Chars
  import opened Strs
  import opened Scan
  import opened Patterns
  import opened Normalize
  import opened Answers
  import opened Options
  import opened Items

  /** `text[start:end].strip()` for the `k`-th question number. */
  function ChoiceBlock(text: string, k: nat): (r: string)
    requires k < |ItemMatches(text)|
    ensures IsStripped(r) && |r| <= |text|
  {
    var ms := ItemMatches(text);
    Strip(text[ms[k].end..NextMarker(text, ms, k)])
  }

  /** The digits of the `k`-th question number (`m.group(1)`): the whole
      digit run the marker starts with. */
  function ChoiceNumber(text: string, k: nat): (qnum: string)
    requires k < |ItemMatches(text)|
    ensures var sp := ItemMatches(text)[k];
      qnum == text[sp.start..RunEnd(text, sp.start, IsDigit)]
    ensures |qnum| > 0 && forall i :: 0 <= i < |qnum| ==> IsDigit(qnum[i])
  {
    var sp := ItemMatches(text)[k];
    ItemMatchShape(text, sp);
    var qnum := text[sp.start..sp.end - 1];
    assert forall i :: 0 <= i < |qnum| ==> qnum[i] == text[sp.start + i];
    qnum
  }

  /** The question text: what precedes the first option label, or all of
      it when there is none. */
  function Stem(cleaned: string): (r: string)
    ensures |r| <= |cleaned| && r == cleaned[..|r|]
    ensures NoLabel(r)
    ensures forall p: nat :: p < |r| ==> !IsLabelAt(cleaned, p)
    ensures |r| < |cleaned| ==> IsLabelAt(cleaned, |r|)
  {
    match FirstLabel(cleaned)
    case None => cleaned
    case Some(f) =>
      var r := cleaned[..f];
      assert forall p: nat :: p < |r| ==> !IsLabelAt(r, p) by {
        forall p: nat | p < |r| ensures !IsLabelAt(r, p) {
          assert !IsLabelAt(cleaned, p);
        }
      }
      r
  }

  /** What the loop does with a non-empty block once `extract_answer` has
      run: skip it without an answer, without options or without a title,
      and otherwise build the record. */
  function Assemble(v: Variant, ex: Extracted, qnum: string, sectionType: string, idPrefix: string, prefix: string): (r: Option<Item>)
    ensures r.None? <==> |ex.answer| == 0 || |SplitOptions(ex.cleaned)| == 0 || AllSpace(Stem(ex.cleaned))
    ensures r.Some? ==> r.value.qtype == sectionType && r.value.answer == ex.answer && r.value.analysis == ""
  {
    FinishEmpty(v, Stem(ex.cleaned));
    if |ex.answer| == 0 then None
    else
      var options := FinishOptions(v, SplitOptions(ex.cleaned));
      if |options| == 0 then None
      else
        var title := Finish(v, Stem(ex.cleaned));
        if |title| == 0 then None
        else Some(Item(ItemId(prefix, "-" + idPrefix, qnum), title, sectionType, options, ex.answer, ""))
  }

  /** The record the loop builds for the `k`-th question number, or `None`
      when one of its four checks sends it to `continue`. */
  function ChoiceCandidate(v: Variant, text: string, sectionType: string, idPrefix: string, prefix: string, k: nat): (r: Option<Item>)
    requires k < |ItemMatches(text)|
    ensures r.Some? ==> WellFormedChoice(v, sectionType, idPrefix, prefix, r.value)
  {
    var block := ChoiceBlock(text, k);
    if |block| == 0 then None
    else
      AssembleSpec(v, ExtractAnswer(block), ChoiceNumber(text, k), sectionType, idPrefix, prefix);
      Assemble(v, ExtractAnswer(block), ChoiceNumber(text, k), sectionType, idPrefix, prefix)
  }

  /** The candidates, one per question number, in text order. */
  function ChoiceCandidates(v: Variant, text: string, sectionType: string, idPrefix: string, prefix: string): (r: seq<Option<Item>>)
    ensures |r| == |ItemMatches(text)|
  {
    var n := |ItemMatches(text)|;
    seq(n, k requires 0 <= k < n => ChoiceCandidate(v, text, sectionType, idPrefix, prefix, k))
  }

  /** `parse_choice_section(text, section_type, id_prefix, prefix)`. */
  function ParseChoiceSection(v: Variant, text: string, sectionType: string, idPrefix: string, prefix: string): (r: seq<Item>)
    ensures |r| <= |ItemMatches(text)|
  {
    Somes(ChoiceCandidates(v, text, sectionType, idPrefix, prefix))
  }

  // ---------------------------------------------------------------------
  // Properties.
  // ---------------------------------------------------------------------

  /** An option as it appears in a record. */
  predicate GoodOption(v: Variant, o: string) {
    |o| > 0 && IsStripped(o) && NoLabel(o) && (v.Pdf? ==> IsNormalized(o))
  }

  /** The shape every choice record has. */
  predicate WellFormedChoice(v: Variant, sectionType: string, idPrefix: string, prefix: string, it: Item) {
    && it.qtype == sectionType
    && it.analysis == ""
    && |it.answer| > 0 && (forall i :: 0 <= i < |it.answer| ==> IsAsciiAH(it.answer[i]))
    && |it.option| > 0 && (forall i :: 0 <= i < |it.option| ==> GoodOption(v, it.option[i]))
    && |it.title| > 0 && IsStripped(it.title) && NoLabel(it.title)
    && (v.Pdf? ==> IsNormalized(it.title))
    && IdFor(prefix, "-" + idPrefix, it.id)
  }

  /** The options `split_options` returns, finished by either copy, are
      good options. */
  lemma FinishedOptionsGood(v: Variant, cleaned: string)
    ensures forall i :: 0 <= i < |FinishOptions(v, SplitOptions(cleaned))| ==>
      GoodOption(v, FinishOptions(v, SplitOptions(cleaned))[i])
  {
    var raw := SplitOptions(cleaned);
    OptionsShape(cleaned);
    forall i | 0 <= i < |raw| ensures GoodOption(v, FinishOptions(v, raw)[i]) {
      var o := raw[i];
      if v.Pdf? {
        NormalizeNoLabel(o);
        NormalizeEmpty(o);
        assert !IsSpace(o[0]);
      }
    }
  }

  /** A block is skipped exactly when it is empty, has no answer, has no
      options or has no title. */
  lemma ChoiceSkipped(v: Variant, text: string, sectionType: string, idPrefix: string, prefix: string, k: nat)
    requires k < |ItemMatches(text)|
    ensures var block := ChoiceBlock(text, k);
      var ex := ExtractAnswer(block);
      ChoiceCandidate(v, text, sectionType, idPrefix, prefix, k).None? <==>
        || |block| == 0
        || |ex.answer| == 0
        || |SplitOptions(ex.cleaned)| == 0
        || AllSpace(Stem(ex.cleaned))
  {
    var block := ChoiceBlock(text, k);
    if |block| > 0 {
      AssembleSkipped(v, ExtractAnswer(block), ChoiceNumber(text, k), sectionType, idPrefix, prefix);
    }
  }

  lemma AssembleSkipped(v: Variant, ex: Extracted, qnum: string, sectionType: string, idPrefix: string, prefix: string)
    ensures Assemble(v, ex, qnum, sectionType, idPrefix, prefix).None? <==>
      |ex.answer| == 0 || |SplitOptions(ex.cleaned)| == 0 || AllSpace(Stem(ex.cleaned))
  {
    FinishEmpty(v, Stem(ex.cleaned));
  }

  /** A record built from an answer of letters and a number of digits is
      well formed, whatever the number of answer letters. */
  lemma AssembleSpec(v: Variant, ex: Extracted, qnum: string, sectionType: string, idPrefix: string, prefix: string)
    requires forall i :: 0 <= i < |ex.answer| ==> IsAsciiAH(ex.answer[i])
    requires |qnum| > 0 && forall i :: 0 <= i < |qnum| ==> IsDigit(qnum[i])
    ensures Assemble(v, ex, qnum, sectionType, idPrefix, prefix).Some? ==>
      var it := Assemble(v, ex, qnum, sectionType, idPrefix, prefix).value;
      && WellFormedChoice(v, sectionType, idPrefix, prefix, it)
      && it.answer == ex.answer
      && it.option == FinishOptions(v, SplitOptions(ex.cleaned))
      && it.title == Finish(v, Stem(ex.cleaned))
      && it.id == ItemId(prefix, "-" + idPrefix, qnum)
  {
    var options := FinishOptions(v, SplitOptions(ex.cleaned));
    var title := Finish(v, Stem(ex.cleaned));
    FinishedOptionsGood(v, ex.cleaned);
    FinishNoLabel(v, Stem(ex.cleaned));
    IdOfDigits(prefix, "-" + idPrefix, qnum);
    assert forall i :: 0 <= i < |options| ==> GoodOption(v, options[i]);
  }

  /** A record that is kept is well formed; its type is the section's, its
      answer and options are those of its block and its number is copied
      into its id. */
  lemma ChoiceCandidateSpec(v: Variant, text: string, sectionType: string, idPrefix: string, prefix: string, k: nat)
    requires k < |ItemMatches(text)|
    ensures ChoiceCandidate(v, text, sectionType, idPrefix, prefix, k).Some? ==>
      var it := ChoiceCandidate(v, text, sectionType, idPrefix, prefix, k).value;
      var ex := ExtractAnswer(ChoiceBlock(text, k));
      && WellFormedChoice(v, sectionType, idPrefix, prefix, it)
      && it.answer == ex.answer
      && it.option == FinishOptions(v, SplitOptions(ex.cleaned))
      && it.title == Finish(v, Stem(ex.cleaned))
      && it.id == ItemId(prefix, "-" + idPrefix, ChoiceNumber(text, k))
  {
    AssembleSpec(v, ExtractAnswer(ChoiceBlock(text, k)), ChoiceNumber(text, k), sectionType, idPrefix, prefix);
  }

  /** The records are the candidates that were not skipped. */
  lemma ChoiceItemsFrom(v: Variant, text: string, sectionType: string, idPrefix: string, prefix: string)
    ensures forall it :: it in ParseChoiceSection(v, text, sectionType, idPrefix, prefix) ==>
      exists k :: 0 <= k < |ItemMatches(text)| && ChoiceCandidate(v, text, sectionType, idPrefix, prefix, k) == Some(it)
    ensures forall k :: 0 <= k < |ItemMatches(text)| && ChoiceCandidate(v, text, sectionType, idPrefix, prefix, k).Some? ==>
      ChoiceCandidate(v, text, sectionType, idPrefix, prefix, k).value in ParseChoiceSection(v, text, sectionType, idPrefix, prefix)
  {
    var c := ChoiceCandidates(v, text, sectionType, idPrefix, prefix);
    SomesMembers(c);
    assert forall k :: 0 <= k < |c| ==> c[k] == ChoiceCandidate(v, text, sectionType, idPrefix, prefix, k);
  }

  /** Every record is well formed. */
  lemma ChoiceItemsWellFormed(v: Variant, text: string, sectionType: string, idPrefix: string, prefix: string)
    ensures forall it :: it in ParseChoiceSection(v, text, sectionType, idPrefix, prefix) ==>
      WellFormedChoice(v, sectionType, idPrefix, prefix, it)
  {
    ChoiceItemsFrom(v, text, sectionType, idPrefix, prefix);
    forall it | it in ParseChoiceSection(v, text, sectionType, idPrefix, prefix)
      ensures WellFormedChoice(v, sectionType, idPrefix, prefix, it)
    {
      var k :| 0 <= k < |ItemMatches(text)| && ChoiceCandidate(v, text, sectionType, idPrefix, prefix, k) == Some(it);
      ChoiceCandidateSpec(v, text, sectionType, idPrefix, prefix, k);
    }
  }

  /** The records keep the order of their question numbers. */
  lemma ChoiceOrder(v: Variant, text: string, sectionType: string, idPrefix: string, prefix: string, i: nat, j: nat)
    requires i < j < |ParseChoiceSection(v, text, sectionType, idPrefix, prefix)|
    ensures var items := ParseChoiceSection(v, text, sectionType, idPrefix, prefix);
      exists ki, kj :: 0 <= ki < kj < |ItemMatches(text)|
        && ChoiceCandidate(v, text, sectionType, idPrefix, prefix, ki) == Some(items[i])
        && ChoiceCandidate(v, text, sectionType, idPrefix, prefix, kj) == Some(items[j])
  {
    var c := ChoiceCandidates(v, text, sectionType, idPrefix, prefix);
    SomeIndexIncreasing(c, i, j);
    var ki, kj := SomeIndex(c, i), SomeIndex(c, j);
    assert c[ki] == ChoiceCandidate(v, text, sectionType, idPrefix, prefix, ki);
    assert c[kj] == ChoiceCandidate(v, text, sectionType, idPrefix, prefix, kj);
  }

  /** Both copies keep the same blocks, with the same id, type and answer;
      the normalizing copy's title and options are `normalize_text` of the
      other's. */
  lemma ChoiceVariants(text: string, sectionType: string, idPrefix: string, prefix: string, k: nat)
    requires k < |ItemMatches(text)|
    ensures ChoiceCandidate(Pdf, text, sectionType, idPrefix, prefix, k).Some? <==>
            ChoiceCandidate(PlainText, text, sectionType, idPrefix, prefix, k).Some?
    ensures ChoiceCandidate(Pdf, text, sectionType, idPrefix, prefix, k).Some? ==>
      var a := ChoiceCandidate(Pdf, text, sectionType, idPrefix, prefix, k).value;
      var b := ChoiceCandidate(PlainText, text, sectionType, idPrefix, prefix, k).value;
      a == b.(title := NormalizeText(b.title), option := NormalizeAll(b.option))
  {
    AssembleVariants(ExtractAnswer(ChoiceBlock(text, k)), ChoiceNumber(text, k), sectionType, idPrefix, prefix);
  }

  lemma AssembleVariantsKept(ex: Extracted, qnum: string, sectionType: string, idPrefix: string, prefix: string)
    ensures Assemble(Pdf, ex, qnum, sectionType, idPrefix, prefix).Some? <==>
            Assemble(PlainText, ex, qnum, sectionType, idPrefix, prefix).Some?
  {
    FinishEmpty(Pdf, Stem(ex.cleaned));
    FinishEmpty(PlainText, Stem(ex.cleaned));
  }

  lemma AssembleVariants(ex: Extracted, qnum: string, sectionType: string, idPrefix: string, prefix: string)
    ensures Assemble(Pdf, ex, qnum, sectionType, idPrefix, prefix).Some? <==>
            Assemble(PlainText, ex, qnum, sectionType, idPrefix, prefix).Some?
    ensures Assemble(Pdf, ex, qnum, sectionType, idPrefix, prefix).Some? ==>
      var a := Assemble(Pdf, ex, qnum, sectionType, idPrefix, prefix).value;
      var b := Assemble(PlainText, ex, qnum, sectionType, idPrefix, prefix).value;
      a == b.(title := NormalizeText(b.title), option := NormalizeAll(b.option))
  {
    AssembleVariantsKept(ex, qnum, sectionType, idPrefix, prefix);
    FinishVariants(Stem(ex.cleaned));
  }

  /** Given the same section text, both copies keep the same records in the
      same order; the normalizing copy's titles and options are
      `normalize_text` of the other's. */
  lemma ChoiceSectionVariants(text: string, sectionType: string, idPrefix: string, prefix: string)
    ensures var p := ParseChoiceSection(Pdf, text, sectionType, idPrefix, prefix);
      var q := ParseChoiceSection(PlainText, text, sectionType, idPrefix, prefix);
      |p| == |q| && forall i :: 0 <= i < |p| ==> p[i] == Renormalized(q[i])
  {
    var a := ChoiceCandidates(Pdf, text, sectionType, idPrefix, prefix);
    var b := ChoiceCandidates(PlainText, text, sectionType, idPrefix, prefix);
    forall k | 0 <= k < |a| ensures a[k] == MapOption(b[k], Renormalized) {
      ChoiceVariants(text, sectionType, idPrefix, prefix, k);
    }
    SomesMap(a, b, Renormalized);
  }
}

=== FILE: convert.dfy ===
/** The pure part of `main`: cut the document into its judge, single-choice
    and multiple-choice sections, parse each, and list judge questions
    first, then single-choice, then multiple-choice ones. Reading the input,
    writing the JSON and printing the counts are not modelled. */
module Convert {
  import opened Wrappers
  import opened Strs
  import opened Scan
  import opened Patterns
  import opened Sections
  import opened Items
  import opened Judge
  import opened Choice

  const JudgeStarts: seq<string> := ["一、判断题"]
  const SingleStarts: seq<string> := ["二、选择题（单选题）", "二、选择题(单选题)", "二、单选题", "二、选择题"]
  const SingleEnds: seq<string> := ["三、选择题（多选题）", "三、选择题(多选题)", "三、多选题", "三、选择题"]
  const MultiStarts: seq<string> := ["三、选择题（多选题）", "三、选择题(多选题)", "三、多选题"]

  /** The three lists `main` builds. */
  datatype Parsed = Parsed(judge: seq<Item>, single: seq<Item>, multi: seq<Item>)

  function JudgeText(text: string): string {
    FindSection(text, JudgeStarts, SingleStarts)
  }

  function SingleText(text: string): string {
    FindSection(text, SingleStarts, SingleEnds)
  }

  function MultiText(text: string): string {
    FindSection(text, MultiStarts, [])
  }

  /** The judge records: the judge section parsed when it is non-empty. */
  function JudgeItems(v: Variant, text: string, prefix: string): (r: seq<Item>)
    ensures JudgeText(text) == [] ==> r == []
    ensures forall it :: it in r ==> WellFormedJudge(v, prefix, it)
  {
    var jt := JudgeText(text);
    if |jt| > 0 then JudgeItemsWellFormed(v, jt, prefix); ParseJudgeSection(v, jt, prefix) else []
  }

  /** The records of a choice section, parsed when it is non-empty. */
  function ChoiceItems(v: Variant, section: string, sectionType: string, idPrefix: string, prefix: string): (r: seq<Item>)
    ensures section == [] ==> r == []
    ensures forall it :: it in r ==> WellFormedChoice(v, sectionType, idPrefix, prefix, it)
  {
    if |section| > 0 then
      ChoiceItemsWellFormed(v, section, sectionType, idPrefix, prefix);
      ParseChoiceSection(v, section, sectionType, idPrefix, prefix)
    else []
  }

  /** The three lists; each record has the type and the id tag of its
      list. */
  function ParseDocument(v: Variant, text: string, prefix: string): (r: Parsed)
    ensures Typed(r, prefix)
  {
    assert "-" + "S" == "-S" && "-" + "M" == "-M";
    Parsed(
      JudgeItems(v, text, prefix),
      ChoiceItems(v, SingleText(text), "single", "S", prefix),
      ChoiceItems(v, MultiText(text), "multi", "M", prefix))
  }

  /** `all_items = judge_items + single_items + multi_items`. */
  function AllItems(p: Parsed): (r: seq<Item>)
    ensures InGroups(r, p)
  {
    p.judge + p.single + p.multi
  }

  /** `parse_choice_111.py`'s `main`, with the document text as input: the
      judge records, then the single-choice ones, then the multiple-choice
      ones, each list whole and in its own order, each record with its
      list's type and id tag. */
  function ConvertDocument(v: Variant, text: string, prefix: string): (r: seq<Item>)
    ensures InGroups(r, ParseDocument(v, text, prefix))
    ensures var p := ParseDocument(v, text, prefix);
      var j, s := |p.judge|, |p.single|;
      && |r| == |p.judge| + |p.single| + |p.multi|
      && (forall i :: 0 <= i < j ==> r[i].qtype == "judge" && IdFor(prefix, "-J", r[i].id))
      && (forall i :: j <= i < j + s ==> r[i].qtype == "single" && IdFor(prefix, "-S", r[i].id))
      && (forall i :: j + s <= i < |r| ==> r[i].qtype == "multi" && IdFor(prefix, "-M", r[i].id))
  {
    var p := ParseDocument(v, text, prefix);
    GroupsInOrder(p, prefix);
    AllItems(p)
  }

  // ---------------------------------------------------------------------
  // Properties.
  // ---------------------------------------------------------------------

  /** `r` holds the judge records, then the single-choice ones, then the
      multiple-choice ones: each list whole, in its own order, and nothing
      else. */
  predicate InGroups(r: seq<Item>, p: Parsed) {
    var j, s := |p.judge|, |p.single|;
    && |r| == j + s + |p.multi|
    && (forall i :: 0 <= i < j ==> r[i] == p.judge[i])
    && (forall i :: j <= i < j + s ==> r[i] == p.single[i - j])
    && (forall i :: j + s <= i < |r| ==> r[i] == p.multi[i - j - s])
  }

  /** Only the concatenation of the three lists is in groups. */
  lemma InGroupsUnique(r: seq<Item>, p: Parsed)
    requires InGroups(r, p)
    ensures r == p.judge + p.single + p.multi
  {
    var all := p.judge + p.single + p.multi;
    forall i | 0 <= i < |r| ensures r[i] == all[i] {
    }
  }

  /** The records of the three lists have the type and the id tag of their
      list. */
  predicate Typed(p: Parsed, prefix: string) {
    && (forall it :: it in p.judge ==> it.qtype == "judge" && IdFor(prefix, "-J", it.id))
    && (forall it :: it in p.single ==> it.qtype == "single" && IdFor(prefix, "-S", it.id))
    && (forall it :: it in p.multi ==> it.qtype == "multi" && IdFor(prefix, "-M", it.id))
  }

  /** Judge records come first, then single-choice, then multiple-choice
      ones, and the total is the sum of the three counts. */
  lemma {:induction false} GroupsInOrder(p: Parsed, prefix: string)
    requires Typed(p, prefix)
    ensures var all := AllItems(p);
      var j, s := |p.judge|, |p.single|;
      && |all| == |p.judge| + |p.single| + |p.multi|
      && (forall i :: 0 <= i < j ==> all[i].qtype == "judge" && IdFor(prefix, "-J", all[i].id))
      && (forall i :: j <= i < j + s ==> all[i].qtype == "single" && IdFor(prefix, "-S", all[i].id))
      && (forall i :: j + s <= i < |all| ==> all[i].qtype == "multi" && IdFor(prefix, "-M", all[i].id))
  {
    var all := AllItems(p);
    var j, s := |p.judge|, |p.single|;
    forall i | 0 <= i < j ensures all[i] in p.judge {
      assert all[i] == p.judge[i];
    }
    forall i | j <= i < j + s ensures all[i] in p.single {
      assert all[i] == p.single[i - j];
    }
    forall i | j + s <= i < |all| ensures all[i] in p.multi {
      assert all[i] == p.multi[i - j - s];
    }
  }

  /** No multiple-choice heading, no multiple-choice questions; the
      multiple-choice headings leave out `三、选择题`. */
  lemma NoMultiHeading(v: Variant, text: string, prefix: string)
    requires forall k :: 0 <= k < |MultiStarts| ==> Find(text, MultiStarts[k], 0).None?
    ensures MultiText(text) == [] && ParseDocument(v, text, prefix).multi == []
  {
  }

  /** The single-choice section stops before any `三、选择题` heading, so a
      document whose third heading is only that has its single-choice
      questions end there. */
  lemma SingleStopsAtThird(text: string)
    ensures forall j :: !OccursAt(SingleText(text), "三、选择题", j)
  {
    forall j: nat ensures !OccursAt(SingleText(text), "三、选择题", j) {
      SectionHasNoEndMarker(text, SingleStarts, SingleEnds, 3, j);
    }
  }

  /** The multiple-choice section runs to the end of the document. */
  lemma MultiRunsToEnd(text: string)
    ensures SectionBounds(text, MultiStarts, []).Some? ==>
      MultiText(text) == text[SectionBounds(text, MultiStarts, []).value.start..]
  {
    NoEndMarkers(text, MultiStarts);
  }

  /** Given the same document, both copies keep the same records in the
      same order; the normalizing copy's titles and options are
      `normalize_text` of the other's. */
  lemma ConvertVariants(text: string, prefix: string)
    ensures var p, q := ParseDocument(Pdf, text, prefix), ParseDocument(PlainText, text, prefix);
      && |p.judge| == |q.judge| && (forall i :: 0 <= i < |p.judge| ==> p.judge[i] == TitleNormalized(q.judge[i]))
      && |p.single| == |q.single| && (forall i :: 0 <= i < |p.single| ==> p.single[i] == Renormalized(q.single[i]))
      && |p.multi| == |q.multi| && (forall i :: 0 <= i < |p.multi| ==> p.multi[i] == Renormalized(q.multi[i]))
  {
    JudgeSectionVariants(JudgeText(text), prefix);
    ChoiceSectionVariants(SingleText(text), "single", "S", prefix);
    ChoiceSectionVariants(MultiText(text), "multi", "M", prefix);
  }
}

=== FILE: items.dfy ===
/** The question records both parsers produce, and the one place where the
    two copies of the parser differ. */
module Items {
  import opened Wrappers
  import opened Chars
  import opened Strs
  import opened Scan
  import opened Patterns
  import opened Normalize

  /** One question record: `id`, `title`, `type`, `option`, `answer`,
      `analysis`. */
  datatype Item = Item(
    id: string,
    title: string,
    qtype: string,
    option: seq<string>,
    answer: string,
    analysis: string)

  /** Which copy of the parser: `pdf_to_json.py` passes titles and options
      through `normalize_text`, `parse_choice_111.py` only strips titles and
      leaves options as `split_options` returns them. */
  datatype Variant = Pdf | PlainText

  /** Where the text that belongs to the `k`-th question marker stops: at
      the next marker, or at the end of the section. */
  function NextMarker(text: string, ms: seq<Span>, k: nat): nat
    requires k < |ms|
  {
    if k + 1 < |ms| then ms[k + 1].start else |text|
  }

  /** How a title is finished. */
  function Finish(v: Variant, s: string): (r: string)
    ensures IsStripped(r)
    ensures v.Pdf? ==> IsNormalized(r)
    ensures NonSpace(r) == NonSpace(s)
  {
    match v
    case Pdf => NormalizeText(s)
    case PlainText => StripKeepsNonSpace(s); Strip(s)
  }

  /** `[normalize_text(o) for o in options]`. */
  function NormalizeAll(opts: seq<string>): (r: seq<string>)
    ensures |r| == |opts| && forall i :: 0 <= i < |opts| ==> r[i] == NormalizeText(opts[i])
    ensures forall i :: 0 <= i < |r| ==> IsNormalized(r[i]) && NonSpace(r[i]) == NonSpace(opts[i])
  {
    seq(|opts|, i requires 0 <= i < |opts| => NormalizeText(opts[i]))
  }

  /** How the options are finished: the stripping copy keeps them as they
      are, the normalizing copy normalizes each on its own. Either way an
      already stripped option is finished exactly as a title would be. */
  function FinishOptions(v: Variant, opts: seq<string>): (r: seq<string>)
    ensures |r| == |opts|
    ensures v.PlainText? ==> r == opts
    ensures v.Pdf? ==> forall i :: 0 <= i < |r| ==> IsNormalized(r[i])
    ensures forall i :: 0 <= i < |r| ==> NonSpace(r[i]) == NonSpace(opts[i])
    ensures forall i :: 0 <= i < |r| && IsStripped(opts[i]) ==> r[i] == Finish(v, opts[i])
  {
    match v
    case Pdf => NormalizeAll(opts)
    case PlainText =>
      assert forall i :: 0 <= i < |opts| && IsStripped(opts[i]) ==> opts[i] == Strip(opts[i]) by {
        forall i | 0 <= i < |opts| && IsStripped(opts[i]) ensures opts[i] == Strip(opts[i]) {
          StripFixes(opts[i]);
        }
      }
      opts
  }

  /** A finished title is empty exactly when the text was all whitespace,
      whichever the copy. */
  lemma FinishEmpty(v: Variant, s: string)
    ensures Finish(v, s) == [] <==> AllSpace(s)
  {
    NormalizeEmpty(s);
    StripEmpty(s);
  }

  /** The normalizing copy's title is `normalize_text` of the stripping
      copy's title. */
  lemma FinishVariants(s: string)
    ensures Finish(Pdf, s) == NormalizeText(Finish(PlainText, s))
  {
    NormalizeStrip(s);
  }

  /** Neither way of finishing a title creates an option label. */
  lemma FinishNoLabel(v: Variant, s: string)
    requires NoLabel(s)
    ensures NoLabel(Finish(v, s))
  {
    match v
    case Pdf => NormalizeNoLabel(s);
    case PlainText => StripNoLabel(s);
  }

  // ---------------------------------------------------------------------
  // Record ids.
  // ---------------------------------------------------------------------

  /** `f"{prefix}{tag}{qnum}"`. */
  function ItemId(prefix: string, tag: string, qnum: string): string {
    prefix + tag + qnum
  }

  /** `id` is `prefix`, then `tag`, then a non-empty run of digits. */
  predicate IdFor(prefix: string, tag: string, id: string) {
    && |prefix| + |tag| < |id| && id[..|prefix| + |tag|] == prefix + tag
    && forall i :: |prefix| + |tag| <= i < |id| ==> IsDigit(id[i])
  }

  /** The id of a question number is the prefix and tag followed by that
      number, and nothing else. */
  lemma IdOfDigits(prefix: string, tag: string, qnum: string)
    requires |qnum| > 0 && forall i :: 0 <= i < |qnum| ==> IsDigit(qnum[i])
    ensures IdFor(prefix, tag, ItemId(prefix, tag, qnum))
    ensures ItemId(prefix, tag, qnum)[|prefix| + |tag|..] == qnum
  {
    var id := prefix + tag + qnum;
    assert id[..|prefix| + |tag|] == prefix + tag;
    forall i | |prefix| + |tag| <= i < |id| ensures IsDigit(id[i]) {
      assert id[i] == qnum[i - |prefix| - |tag|];
    }
  }

  // ---------------------------------------------------------------------
  // Keeping the records that were not skipped.
  // ---------------------------------------------------------------------

  /** The `Some` values of `s`, in order: the items a loop with `continue`
      appends. */
  function Somes<T>(s: seq<Option<T>>): (r: seq<T>)
    ensures |r| <= |s|
    decreases |s|
  {
    if |s| == 0 then []
    else (match s[0] case Some(x) => [x] case None => []) + Somes(s[1..])
  }

  /** Keeping the values of a concatenation keeps each part's values, in
      order. */
  lemma {:induction false} SomesAppend<T>(a: seq<Option<T>>, b: seq<Option<T>>)
    ensures Somes(a + b) == Somes(a) + Somes(b)
    decreases |a|
  {
    if |a| == 0 {
      assert a + b == b;
    } else {
      assert (a + b)[0] == a[0];
      assert (a + b)[1..] == a[1..] + b;
      SomesAppend(a[1..], b);
    }
  }

  /** An item is kept exactly when some candidate is that item. */
  lemma {:induction false} SomesMembers<T>(s: seq<Option<T>>)
    ensures forall x :: x in Somes(s) ==> exists k :: 0 <= k < |s| && s[k] == Some(x)
    ensures forall k :: 0 <= k < |s| && s[k].Some? ==> s[k].value in Somes(s)
    decreases |s|
  {
    if |s| > 0 {
      var t := s[1..];
      SomesMembers(t);
      var head: seq<T> := match s[0] case Some(y) => [y] case None => [];
      assert Somes(s) == head + Somes(t);
      forall x | x in Somes(s) ensures exists k :: 0 <= k < |s| && s[k] == Some(x) {
        if s[0] != Some(x) {
          assert x !in head;
          assert x in Somes(t);
          var k :| 0 <= k < |t| && t[k] == Some(x);
          assert s[k + 1] == Some(x);
        }
      }
      forall k | 0 <= k < |s| && s[k].Some? ensures s[k].value in Somes(s) {
        if k > 0 {
          assert t[k - 1] == s[k];
        }
      }
    }
  }

  /** Where the `i`-th kept value sits among the candidates. */
  function SomeIndex<T>(s: seq<Option<T>>, i: nat): (k: nat)
    requires i < |Somes(s)|
    ensures k < |s| && s[k] == Some(Somes(s)[i])
    decreases |s|
  {
    var t := s[1..];
    assert Somes(s) == (match s[0] case Some(x) => [x] case None => []) + Somes(t);
    if s[0].Some? then
      if i == 0 then 0 else 1 + SomeIndex(t, i - 1)
    else 1 + SomeIndex(t, i)
  }

  /** Kept values keep the order of their candidates. */
  lemma {:induction false} SomeIndexIncreasing<T>(s: seq<Option<T>>, i: nat, j: nat)
    requires i < j < |Somes(s)|
    ensures SomeIndex(s, i) < SomeIndex(s, j)
    decreases |s|
  {
    var t := s[1..];
    assert Somes(s) == (match s[0] case Some(x) => [x] case None => []) + Somes(t);
    if s[0].Some? {
      if i > 0 {
        SomeIndexIncreasing(t, i - 1, j - 1);
      }
    } else {
      SomeIndexIncreasing(t, i, j);
    }
  }

  /** All candidates kept: nothing is skipped. */
  lemma {:induction false} SomesAll<T>(s: seq<Option<T>>)
    requires forall i :: 0 <= i < |s| ==> s[i].Some?
    ensures |Somes(s)| == |s|
    decreases |s|
  {
    if |s| > 0 {
      assert forall i :: 0 <= i < |s[1..]| ==> s[1..][i] == s[i + 1];
      SomesAll(s[1..]);
    }
  }

  /** A candidate with `f` applied to the record it holds. */
  function MapOption<T>(o: Option<T>, f: T -> T): Option<T> {
    match o
    case Some(x) => Some(f(x))
    case None => None
  }

  /** Candidates that correspond one to one under `f` keep the same
      positions, so the kept values correspond one to one as well. */
  lemma {:induction false} SomesMap<T>(a: seq<Option<T>>, b: seq<Option<T>>, f: T -> T)
    requires |a| == |b| && forall k :: 0 <= k < |a| ==> a[k] == MapOption(b[k], f)
    ensures |Somes(a)| == |Somes(b)|
    ensures forall i :: 0 <= i < |Somes(a)| ==> Somes(a)[i] == f(Somes(b)[i])
    decreases |a|
  {
    if |a| > 0 {
      var a', b' := a[1..], b[1..];
      forall k | 0 <= k < |a'| ensures a'[k] == MapOption(b'[k], f) {
        assert a'[k] == a[k + 1] && b'[k] == b[k + 1];
      }
      SomesMap(a', b', f);
      var ha: seq<T> := match a[0] case Some(x) => [x] case None => [];
      var hb: seq<T> := match b[0] case Some(x) => [x] case None => [];
      assert Somes(a) == ha + Somes(a');
      assert Somes(b) == hb + Somes(b');
      assert |ha| == |hb|;
      forall i | 0 <= i < |Somes(a)| ensures Somes(a)[i] == f(Somes(b)[i]) {
        if i >= |ha| {
          assert Somes(a)[i] == Somes(a')[i - |ha|] && Somes(b)[i] == Somes(b')[i - |hb|];
        }
      }
    }
  }

  /** The judge record of the normalizing copy, from the other copy's. */
  function TitleNormalized(it: Item): Item {
    it.(title := NormalizeText(it.title))
  }

  /** The choice record of the normalizing copy, from the other copy's. */
  function Renormalized(it: Item): Item {
    it.(title := NormalizeText(it.title), option := NormalizeAll(it.option))
  }
}

=== FILE: judge.dfy ===
/** `parse_judge_section`: one true/false question per `N、（√）` or
    `N、（×）` marker; the title is the text up to the next marker. */
module Judge {
  import opened Wrappers
  import opened Chars
  import opened Strs
  import opened Scan
  import opened Patterns
  import opened Normalize
  import opened Items

  /** The characters `lstrip` removes from the front of a judge title. */
  const TitlePunct: set<char> := {'。', ' ', '、', '，', '\n', '\r', '\t'}

  const JudgeOptions: seq<string> := ["正确", "错误"]

  /** `text[start:end].strip().lstrip(...)`, then finished by the copy. */
  function JudgeTitle(v: Variant, raw: string): (r: string)
    ensures r == [] <==> AllSpace(LStripChars(Strip(raw), TitlePunct))
    ensures IsStripped(r) && (v.Pdf? ==> IsNormalized(r))
    ensures NonSpace(r) == NonSpace(LStripChars(Strip(raw), TitlePunct))
  {
    FinishEmpty(v, LStripChars(Strip(raw), TitlePunct));
    Finish(v, LStripChars(Strip(raw), TitlePunct))
  }

  /** The record for a kept marker: fixed options `["正确", "错误"]`, answer
      `A` for `√` and `B` otherwise, empty analysis. */
  function JudgeRecord(v: Variant, prefix: string, qnum: string, title: string, mark: char): (it: Item)
    requires |qnum| > 0 && forall i :: 0 <= i < |qnum| ==> IsDigit(qnum[i])
    requires |title| > 0 && IsStripped(title) && (v.Pdf? ==> IsNormalized(title))
    ensures WellFormedJudge(v, prefix, it)
    ensures it.answer == "A" <==> mark == '√'
    ensures it.title == title && it.id == ItemId(prefix, "-J", qnum)
  {
    IdOfDigits(prefix, "-J", qnum);
    Item(ItemId(prefix, "-J", qnum), title, "judge", JudgeOptions, if mark == '√' then "A" else "B", "")
  }

  /** The digits of the `k`-th marker (`match.group(1)`): its whole digit
      run, which the title starts four characters after. */
  function JudgeNumber(text: string, k: nat): (qnum: string)
    requires k < |JudgeMatches(text)|
    ensures var sp := JudgeMatches(text)[k];
      && sp.start + 4 < sp.end && RunEnd(text, sp.start, IsDigit) == sp.end - 4
      && qnum == text[sp.start..RunEnd(text, sp.start, IsDigit)]
      && |qnum| > 0 && forall i :: 0 <= i < |qnum| ==> IsDigit(qnum[i])
  {
    var sp := JudgeMatches(text)[k];
    JudgeMatchShape(text, sp);
    var qnum := text[sp.start..sp.end - 4];
    assert forall i :: 0 <= i < |qnum| ==> qnum[i] == text[sp.start + i];
    qnum
  }

  /** The mark of the `k`-th marker (`match.group(2)`). */
  function JudgeMark(text: string, k: nat): (c: char)
    requires k < |JudgeMatches(text)|
    ensures IsJudgeMark(c)
  {
    JudgeMatchShape(text, JudgeMatches(text)[k]);
    text[JudgeMatches(text)[k].end - 2]
  }

  /** `text[end:next_start]`: what follows the `k`-th marker, up to the
      next marker or the end of the section. */
  function JudgeRest(text: string, k: nat): string
    requires k < |JudgeMatches(text)|
  {
    var ms := JudgeMatches(text);
    text[ms[k].end..NextMarker(text, ms, k)]
  }

  /** The record the loop builds for the `k`-th marker, or `None` when its
      title comes out empty and the loop continues. */
  function JudgeCandidate(v: Variant, text: string, prefix: string, k: nat): (r: Option<Item>)
    requires k < |JudgeMatches(text)|
    ensures r.None? <==> AllSpace(LStripChars(Strip(JudgeRest(text, k)), TitlePunct))
    ensures r.Some? ==> WellFormedJudge(v, prefix, r.value)
  {
    var title := JudgeTitle(v, JudgeRest(text, k));
    if |title| == 0 then None
    else Some(JudgeRecord(v, prefix, JudgeNumber(text, k), title, JudgeMark(text, k)))
  }

  /** The candidates, one per marker, in marker order. */
  function JudgeCandidates(v: Variant, text: string, prefix: string): (r: seq<Option<Item>>)
    ensures |r| == |JudgeMatches(text)|
  {
    var n := |JudgeMatches(text)|;
    seq(n, k requires 0 <= k < n => JudgeCandidate(v, text, prefix, k))
  }

  /** `parse_judge_section(text, prefix)`. */
  function ParseJudgeSection(v: Variant, text: string, prefix: string): (r: seq<Item>)
    ensures |r| <= |JudgeMatches(text)|
  {
    Somes(JudgeCandidates(v, text, prefix))
  }

  // ---------------------------------------------------------------------
  // Properties.
  // ---------------------------------------------------------------------

  /** The shape every judge record has. */
  predicate WellFormedJudge(v: Variant, prefix: string, it: Item) {
    && it.qtype == "judge"
    && it.option == JudgeOptions
    && it.analysis == ""
    && (it.answer == "A" || it.answer == "B")
    && |it.title| > 0 && IsStripped(it.title)
    && (v.Pdf? ==> IsNormalized(it.title))
    && IdFor(prefix, "-J", it.id)
  }

  /** A kept marker's id is the prefix, `-J` and the marker's digits,
      copied verbatim. */
  lemma JudgeCandidateId(v: Variant, text: string, prefix: string, k: nat)
    requires k < |JudgeMatches(text)|
    ensures var sp := JudgeMatches(text)[k];
      JudgeCandidate(v, text, prefix, k).Some? ==>
        JudgeCandidate(v, text, prefix, k).value.id == ItemId(prefix, "-J", text[sp.start..RunEnd(text, sp.start, IsDigit)])
  {
  }

  /** A kept marker's title is the text after it up to the next marker,
      stripped, cleared of leading punctuation and finished by the copy. */
  lemma JudgeCandidateTitle(v: Variant, text: string, prefix: string, k: nat)
    requires k < |JudgeMatches(text)|
    ensures var ms := JudgeMatches(text);
      JudgeCandidate(v, text, prefix, k).Some? ==>
        JudgeCandidate(v, text, prefix, k).value.title ==
          Finish(v, LStripChars(Strip(text[ms[k].end..NextMarker(text, ms, k)]), TitlePunct))
  {
  }

  /** A kept marker's answer is `A` exactly when its mark is `√`. */
  lemma JudgeCandidateAnswer(v: Variant, text: string, prefix: string, k: nat)
    requires k < |JudgeMatches(text)|
    ensures JudgeCandidate(v, text, prefix, k).Some? ==>
      (JudgeCandidate(v, text, prefix, k).value.answer == "A" <==> text[JudgeMatches(text)[k].end - 2] == '√')
  {
  }

  /** The records are the candidates that were not skipped. */
  lemma JudgeItemsFrom(v: Variant, text: string, prefix: string)
    ensures forall it :: it in ParseJudgeSection(v, text, prefix) ==>
      exists k :: 0 <= k < |JudgeMatches(text)| && JudgeCandidate(v, text, prefix, k) == Some(it)
    ensures forall k :: 0 <= k < |JudgeMatches(text)| && JudgeCandidate(v, text, prefix, k).Some? ==>
      JudgeCandidate(v, text, prefix, k).value in ParseJudgeSection(v, text, prefix)
  {
    var c := JudgeCandidates(v, text, prefix);
    SomesMembers(c);
    assert forall k :: 0 <= k < |c| ==> c[k] == JudgeCandidate(v, text, prefix, k);
  }

  /** The records keep the order of their markers. */
  lemma JudgeOrder(v: Variant, text: string, prefix: string, i: nat, j: nat)
    requires i < j < |ParseJudgeSection(v, text, prefix)|
    ensures var items := ParseJudgeSection(v, text, prefix);
      exists ki, kj :: 0 <= ki < kj < |JudgeMatches(text)|
        && JudgeCandidate(v, text, prefix, ki) == Some(items[i])
        && JudgeCandidate(v, text, prefix, kj) == Some(items[j])
  {
    var c := JudgeCandidates(v, text, prefix);
    SomeIndexIncreasing(c, i, j);
    var ki, kj := SomeIndex(c, i), SomeIndex(c, j);
    assert c[ki] == JudgeCandidate(v, text, prefix, ki) && c[kj] == JudgeCandidate(v, text, prefix, kj);
  }

  /** Every record is well formed. */
  lemma JudgeItemsWellFormed(v: Variant, text: string, prefix: string)
    ensures forall it :: it in ParseJudgeSection(v, text, prefix) ==> WellFormedJudge(v, prefix, it)
  {
    JudgeItemsFrom(v, text, prefix);
    forall it | it in ParseJudgeSection(v, text, prefix) ensures WellFormedJudge(v, prefix, it) {
      var k :| 0 <= k < |JudgeMatches(text)| && JudgeCandidate(v, text, prefix, k) == Some(it);
    }
  }

  /** Both copies keep the same markers, with the same id and answer; the
      normalizing copy's title is `normalize_text` of the other's. */
  lemma JudgeVariants(text: string, prefix: string, k: nat)
    requires k < |JudgeMatches(text)|
    ensures JudgeCandidate(Pdf, text, prefix, k).Some? <==> JudgeCandidate(PlainText, text, prefix, k).Some?
    ensures JudgeCandidate(Pdf, text, prefix, k).Some? ==>
      var a, b := JudgeCandidate(Pdf, text, prefix, k).value, JudgeCandidate(PlainText, text, prefix, k).value;
      a == b.(title := NormalizeText(b.title))
  {
    var stripped := LStripChars(Strip(JudgeRest(text, k)), TitlePunct);
    FinishEmpty(Pdf, stripped);
    FinishEmpty(PlainText, stripped);
    FinishVariants(stripped);
    var ta, tb := JudgeTitle(Pdf, JudgeRest(text, k)), JudgeTitle(PlainText, JudgeRest(text, k));
    if |ta| > 0 {
      var q, m := JudgeNumber(text, k), JudgeMark(text, k);
      assert JudgeRecord(Pdf, prefix, q, ta, m) == JudgeRecord(PlainText, prefix, q, tb, m).(title := ta);
    }
  }

  /** Given the same section text, both copies keep the same records in the
      same order; the normalizing copy's titles are `normalize_text` of the
      other's. */
  lemma JudgeSectionVariants(text: string, prefix: string)
    ensures var p, q := ParseJudgeSection(Pdf, text, prefix), ParseJudgeSection(PlainText, text, prefix);
      |p| == |q| && forall i :: 0 <= i < |p| ==> p[i] == TitleNormalized(q[i])
  {
    var a, b := JudgeCandidates(Pdf, text, prefix), JudgeCandidates(PlainText, text, prefix);
    forall k | 0 <= k < |a| ensures a[k] == MapOption(b[k], TitleNormalized) {
      JudgeVariants(text, prefix, k);
    }
    SomesMap(a, b, TitleNormalized);
  }
}

=== FILE: normalize.dfy ===
/** `normalize_text` (pdf_to_json.py): the whitespace cleanup the PDF entry
    point applies to titles and options. It runs in four steps:
    1. `replace("\u00a0", " ").replace("\r", "\n")`,
    2. `re.sub(r"\s+", " ", s)`,
    3. `.strip()`,
    4. `re.sub(r"(?<=[一-鿿])\s+(?=[一-鿿])", "", s)`. */
module Normalize {
  import opened Chars
  import opened Strs
  import opened Patterns

  // ---------------------------------------------------------------------
  // What a normalized text looks like.
  // ---------------------------------------------------------------------

  /** The only whitespace left is the ordinary space (so no NBSP, no CR). */
  predicate OnlyPlainSpaces(t: string) {
    forall i :: 0 <= i < |t| && IsSpace(t[i]) ==> t[i] == ' '
  }

  predicate NoDoubleSpace(t: string) {
    forall i :: 0 <= i < |t| - 1 ==> !(IsSpace(t[i]) && IsSpace(t[i + 1]))
  }

  /** No whitespace sits between two CJK ideographs. */
  predicate NoIdeographGap(t: string) {
    forall i :: 0 < i < |t| - 1 && IsSpace(t[i]) ==> !(IsIdeograph(t[i - 1]) && IsIdeograph(t[i + 1]))
  }

  predicate IsNormalized(t: string) {
    OnlyPlainSpaces(t) && NoDoubleSpace(t) && IsStripped(t) && NoIdeographGap(t)
  }

  // ---------------------------------------------------------------------
  // The four steps.
  // ---------------------------------------------------------------------

  function ReplaceChar(c: char): char {
    if c == '\U{A0}' then ' ' else if c == '\r' then '\n' else c
  }

  /** Step 1: NBSP becomes a space and CR becomes LF. */
  function Replace(s: string): (r: string)
    ensures |r| == |s|
    ensures forall i :: 0 <= i < |r| ==> r[i] != '\U{A0}' && r[i] != '\r'
    ensures forall i :: 0 <= i < |s| && s[i] != '\U{A0}' && s[i] != '\r' ==> r[i] == s[i]
    ensures forall i :: 0 <= i < |s| && s[i] == '\U{A0}' ==> r[i] == ' '
    ensures forall i :: 0 <= i < |s| && s[i] == '\r' ==> r[i] == '\n'
  {
    seq(|s|, i requires 0 <= i < |s| => ReplaceChar(s[i]))
  }

  /** A whitespace character as step 2 leaves it. */
  function Squash(c: char): char {
    if IsSpace(c) then ' ' else c
  }

  /** Where step 2 resumes after `s[0]`: past the whole whitespace run when
      `s` starts with one. */
  function SkipRun(s: string): (k: nat)
    requires |s| > 0
    ensures 1 <= k <= |s|
    ensures forall i :: 1 <= i < k ==> IsSpace(s[i])
    ensures IsSpace(s[0]) && k < |s| ==> !IsSpace(s[k])
    ensures !IsSpace(s[0]) ==> k == 1
  {
    if IsSpace(s[0]) then RunEnd(s, 0, IsSpace) else 1
  }

  /** Step 2: every maximal run of whitespace becomes one space. */
  function Collapse(s: string): (r: string)
    ensures |s| > 0 ==> |r| > 0 && r[0] == Squash(s[0])
    ensures |r| <= |s|
    decreases |s|
  {
    if |s| == 0 then [] else [Squash(s[0])] + Collapse(s[SkipRun(s)..])
  }

  /** Step 4 at the front of `s`: where the text resumes after `s[0]`.
      A maximal whitespace run is deleted when an ideograph precedes it and
      another follows it; the look-behind and look-ahead do not consume the
      ideographs, so `中 文 字` loses both gaps. */
  function GapEnd(s: string): (g: nat)
    requires |s| > 0
    ensures 1 <= g <= |s|
    ensures g > 1 ==> g < |s| && IsIdeograph(s[0]) && IsIdeograph(s[g]) && forall i :: 1 <= i < g ==> IsSpace(s[i])
    ensures g == 1 && IsIdeograph(s[0]) && |s| > 1 && IsSpace(s[1]) ==>
      var k := RunEnd(s, 1, IsSpace); k == |s| || !IsIdeograph(s[k])
  {
    if IsIdeograph(s[0]) then
      var k := RunEnd(s, 1, IsSpace);
      if 1 < k < |s| && IsIdeograph(s[k]) then k else 1
    else 1
  }

  /** Step 4. */
  function DropGaps(s: string): (r: string)
    ensures |s| > 0 ==> |r| > 0 && r[0] == s[0] && r[|r| - 1] == s[|s| - 1]
    ensures |r| <= |s|
    decreases |s|
  {
    if |s| == 0 then [] else [s[0]] + DropGaps(s[GapEnd(s)..])
  }

  /** `normalize_text`. (`str(text or "")` is the identity on a string.) */
  function NormalizeText(s: string): (r: string)
    ensures IsNormalized(r)
    ensures NonSpace(r) == NonSpace(s)
  {
    var t := Strip(Collapse(Replace(s)));
    NormalizedParts(s);
    DropGapsNormalizes(t);
    DropGapsKeepsNonSpace(t);
    DropGaps(t)
  }

  // ---------------------------------------------------------------------
  // Each step keeps the non-whitespace characters.
  // ---------------------------------------------------------------------

  lemma {:induction false} ReplaceKeepsNonSpace(s: string)
    ensures NonSpace(Replace(s)) == NonSpace(s)
    decreases |s|
  {
    if |s| > 0 {
      assert Replace(s)[1..] == Replace(s[1..]);
      ReplaceKeepsNonSpace(s[1..]);
    }
  }

  /** Dropping whitespace right after the first character keeps the
      non-whitespace characters. */
  lemma {:induction false} NonSpaceSkip(s: string, k: nat)
    requires 1 <= k <= |s| && forall i :: 1 <= i < k ==> IsSpace(s[i])
    ensures NonSpace(s) == NonSpace([s[0]]) + NonSpace(s[k..])
  {
    var head, gap, rest := [s[0]], s[1..k], s[k..];
    assert NonSpace(gap) == [] by {
      NonSpaceAllSpace(gap);
    }
    assert s == head + (gap + rest);
    NonSpaceAppend(head, gap + rest);
    NonSpaceAppend(gap, rest);
  }

  lemma {:induction false} CollapseKeepsNonSpace(s: string)
    ensures NonSpace(Collapse(s)) == NonSpace(s)
    decreases |s|
  {
    if |s| > 0 {
      var k := SkipRun(s);
      NonSpaceSkip(s, k);
      CollapseKeepsNonSpace(s[k..]);
      NonSpaceAppend([Squash(s[0])], Collapse(s[k..]));
      assert NonSpace([Squash(s[0])]) == NonSpace([s[0]]);
    }
  }

  lemma {:induction false} DropGapsKeepsNonSpace(s: string)
    ensures NonSpace(DropGaps(s)) == NonSpace(s)
    decreases |s|
  {
    if |s| > 0 {
      var g := GapEnd(s);
      NonSpaceSkip(s, g);
      DropGapsKeepsNonSpace(s[g..]);
      NonSpaceAppend([s[0]], DropGaps(s[g..]));
    }
  }

  // ---------------------------------------------------------------------
  // Steps 1–3 give plain, single, stripped spaces.
  // ---------------------------------------------------------------------

  lemma {:induction false} SliceKeepsSpacing(t: string, a: nat, b: nat)
    requires a <= b <= |t| && OnlyPlainSpaces(t) && NoDoubleSpace(t)
    ensures OnlyPlainSpaces(t[a..b]) && NoDoubleSpace(t[a..b])
  {
    assert forall i :: 0 <= i < b - a ==> t[a..b][i] == t[a + i];
  }

  /** Putting one character in front of a text with plain single spaces. */
  lemma {:induction false} PlainCons(c: char, R: string)
    requires OnlyPlainSpaces(R) && NoDoubleSpace(R)
    requires IsSpace(c) ==> c == ' '
    requires |R| > 0 && IsSpace(c) ==> !IsSpace(R[0])
    ensures OnlyPlainSpaces([c] + R) && NoDoubleSpace([c] + R)
  {
    var r := [c] + R;
    assert forall i :: 0 < i < |r| ==> r[i] == R[i - 1];
  }

  /** Step 2 leaves only single plain spaces. */
  lemma {:induction false} CollapseSpacing(s: string)
    ensures OnlyPlainSpaces(Collapse(s)) && NoDoubleSpace(Collapse(s))
    decreases |s|
  {
    if |s| > 0 {
      var k := SkipRun(s);
      CollapseSpacing(s[k..]);
      assert |s[k..]| > 0 ==> s[k..][0] == s[k];
      PlainCons(Squash(s[0]), Collapse(s[k..]));
    }
  }

  /** Stripping cuts a slice, so the spacing carries over. */
  lemma {:induction false} StripKeepsSpacing(c: string)
    requires OnlyPlainSpaces(c) && NoDoubleSpace(c)
    ensures OnlyPlainSpaces(Strip(c)) && NoDoubleSpace(Strip(c))
  {
    SliceKeepsSpacing(c, StripStart(c), StripStop(c));
  }

  lemma {:induction false} NormalizedParts(s: string)
    ensures var t := Strip(Collapse(Replace(s)));
      OnlyPlainSpaces(t) && NoDoubleSpace(t) && IsStripped(t) && NonSpace(t) == NonSpace(s)
  {
    var c := Collapse(Replace(s));
    CollapseSpacing(Replace(s));
    StripKeepsSpacing(c);
    ReplaceKeepsNonSpace(s);
    CollapseKeepsNonSpace(Replace(s));
    StripKeepsNonSpace(c);
  }

  // ---------------------------------------------------------------------
  // Step 4 finishes the job.
  // ---------------------------------------------------------------------

  lemma {:induction false} DropGapsNormalizes(s: string)
    requires OnlyPlainSpaces(s) && NoDoubleSpace(s) && IsStripped(s)
    ensures IsNormalized(DropGaps(s))
  {
    DropGapsSpacing(s);
  }

  /** Step 4 only deletes whitespace, so the spacing carries over, and what
      it keeps between two ideographs is never whitespace. */
  lemma {:induction false} DropGapsSpacing(s: string)
    requires OnlyPlainSpaces(s) && NoDoubleSpace(s)
    ensures OnlyPlainSpaces(DropGaps(s)) && NoDoubleSpace(DropGaps(s)) && NoIdeographGap(DropGaps(s))
    decreases |s|
  {
    if |s| > 0 {
      var g := GapEnd(s);
      var rest := s[g..];
      var R := DropGaps(rest);
      var r := DropGaps(s);
      assert r == [s[0]] + R;
      assert OnlyPlainSpaces(R) && NoDoubleSpace(R) && NoIdeographGap(R) by {
        SliceKeepsSpacing(s, g, |s|);
        DropGapsSpacing(rest);
      }
      assert |R| > 0 ==> R[0] == s[g];
      assert |R| > 1 && IsIdeograph(s[0]) && IsSpace(R[0]) ==> !IsIdeograph(R[1]) by {
        if |R| > 1 && IsIdeograph(s[0]) && IsSpace(R[0]) {
          KeptSpace(s);
        }
      }
      SpacingCons(s[0], R);
    }
  }

  /** When step 4 keeps the space after an ideograph, no ideograph follows it. */
  lemma {:induction false} KeptSpace(s: string)
    requires NoDoubleSpace(s) && |s| > 2 && IsIdeograph(s[0]) && IsSpace(s[GapEnd(s)])
    ensures GapEnd(s) == 1 && DropGaps(s[1..])[1] == s[2] && !IsIdeograph(s[2])
  {
    var g := GapEnd(s);
    assert RunEnd(s, 1, IsSpace) == 2;
    assert GapEnd(s[1..]) == 1;
    assert s[1..][1..] == s[2..];
    assert DropGaps(s[1..]) == [s[1]] + DropGaps(s[2..]);
  }

  /** Putting one character in front of a well-spaced text. */
  lemma {:induction false} SpacingCons(c: char, R: string)
    requires OnlyPlainSpaces(R) && NoDoubleSpace(R) && NoIdeographGap(R)
    requires IsSpace(c) ==> c == ' '
    requires |R| > 0 && IsSpace(c) ==> !IsSpace(R[0])
    requires |R| > 1 && IsIdeograph(c) && IsSpace(R[0]) ==> !IsIdeograph(R[1])
    ensures var r := [c] + R; OnlyPlainSpaces(r) && NoDoubleSpace(r) && NoIdeographGap(r)
  {
    PlainCons(c, R);
    var r := [c] + R;
    forall i | 0 < i < |r| - 1 && IsSpace(r[i]) ensures !(IsIdeograph(r[i - 1]) && IsIdeograph(r[i + 1])) {
      assert r[i] == R[i - 1] && r[i + 1] == R[i];
      if i > 1 {
        assert r[i - 1] == R[i - 2];
      }
    }
  }

  // ---------------------------------------------------------------------
  // A normalized text is left alone, so normalizing twice changes nothing.
  // ---------------------------------------------------------------------

  lemma {:induction false} ReplaceFixes(t: string)
    requires OnlyPlainSpaces(t)
    ensures Replace(t) == t
  {
  }

  lemma {:induction false} CollapseFixes(t: string)
    requires OnlyPlainSpaces(t) && NoDoubleSpace(t)
    ensures Collapse(t) == t
    decreases |t|
  {
    if |t| > 0 {
      assert SkipRun(t) == 1;
      SliceKeepsSpacing(t, 1, |t|);
      CollapseFixes(t[1..]);
    }
  }

  lemma {:induction false} DropGapsFixes(t: string)
    requires NoDoubleSpace(t) && NoIdeographGap(t)
    ensures DropGaps(t) == t
    decreases |t|
  {
    if |t| > 0 {
      assert GapEnd(t) == 1;
      assert NoDoubleSpace(t[1..]) && NoIdeographGap(t[1..]) by {
        assert forall i :: 0 <= i < |t| - 1 ==> t[1..][i] == t[i + 1];
      }
      DropGapsFixes(t[1..]);
    }
  }

  lemma {:induction false} NormalizeFixes(t: string)
    requires IsNormalized(t)
    ensures NormalizeText(t) == t
  {
    ReplaceFixes(t);
    CollapseFixes(t);
    TrimsUnique(t, t, 0);
    DropGapsFixes(t);
  }

  /** `normalize_text` is idempotent. */
  lemma {:induction false} NormalizeIdempotent(s: string)
    ensures NormalizeText(NormalizeText(s)) == NormalizeText(s)
  {
    NormalizeFixes(NormalizeText(s));
  }

  /** Normalizing gives the empty text exactly when there was nothing but
      whitespace. */
  lemma {:induction false} NormalizeEmpty(s: string)
    ensures NormalizeText(s) == [] <==> AllSpace(s)
  {
    var r := NormalizeText(s);
    NonSpaceAllSpace(s);
    NonSpaceAllSpace(r);
    assert |r| > 0 ==> !IsSpace(r[0]);
  }

  // ---------------------------------------------------------------------
  // Stripping first makes no difference.
  // ---------------------------------------------------------------------

  lemma {:induction false} RunEndExact(s: string, p: nat, q: nat, inClass: char -> bool)
    requires p <= q <= |s|
    requires forall i :: p <= i < q ==> inClass(s[i])
    requires q == |s| || !inClass(s[q])
    ensures RunEnd(s, p, inClass) == q
    decreases q - p
  {
    if p < q {
      RunEndExact(s, p + 1, q, inClass);
    }
  }

  lemma {:induction false} CollapseAllSpace(x: string)
    requires AllSpace(x)
    ensures Collapse(x) == if |x| == 0 then [] else [' ']
  {
    if |x| > 0 {
      assert SkipRun(x) == |x|;
    }
  }

  lemma {:induction false} CollapseLeading(u: string, v: string)
    requires AllSpace(u) && (|v| > 0 ==> !IsSpace(v[0]))
    ensures Collapse(u + v) == (if |u| == 0 then [] else [' ']) + Collapse(v)
  {
    if |u| == 0 {
      assert u + v == v;
    } else {
      var k := SkipRun(u + v);
      assert (u + v)[0] == u[0];
      RunEndExact(u + v, 0, |u|, IsSpace);
      assert (u + v)[k..] == v;
    }
  }

  lemma ConsAssoc(x: char, a: string, b: string)
    ensures [x] + (a + b) == ([x] + a) + b
  {
  }

  /** Text after the last non-whitespace character of `m` does not change
      where step 2 resumes. */
  lemma SkipRunAppend(m: string, w: string)
    requires |m| > 0 && !IsSpace(m[|m| - 1])
    ensures SkipRun(m + w) == SkipRun(m) && (m + w)[SkipRun(m)..] == m[SkipRun(m)..] + w
  {
    var k := SkipRun(m);
    if IsSpace(m[0]) {
      assert k < |m|;
      RunEndExact(m + w, 0, k, IsSpace);
    }
  }

  lemma {:induction false} CollapseTrailing(m: string, w: string)
    requires AllSpace(w) && (|m| > 0 ==> !IsSpace(m[|m| - 1]))
    ensures Collapse(m + w) == Collapse(m) + (if |w| == 0 then [] else [' '])
    decreases |m|
  {
    if |m| == 0 {
      assert m + w == w;
      CollapseAllSpace(w);
    } else {
      var k := SkipRun(m);
      SkipRunAppend(m, w);
      CollapseTrailing(m[k..], w);
      ConsAssoc(Squash(m[0]), Collapse(m[k..]), if |w| == 0 then [] else [' ']);
    }
  }

  /** Step 2 keeps the last character, squashed. */
  lemma {:induction false} CollapseLast(s: string)
    requires |s| > 0
    ensures |Collapse(s)| > 0 && Collapse(s)[|Collapse(s)| - 1] == Squash(s[|s| - 1])
    decreases |s|
  {
    var k := SkipRun(s);
    var rest := s[k..];
    var c := Collapse(s);
    assert c == [Squash(s[0])] + Collapse(rest);
    if k < |s| {
      CollapseLast(rest);
      assert rest[|rest| - 1] == s[|s| - 1];
      assert c[|c| - 1] == Collapse(rest)[|Collapse(rest)| - 1];
    } else {
      assert Collapse(rest) == [];
      if |s| > 1 {
        assert IsSpace(s[0]) && IsSpace(s[|s| - 1]);
      }
    }
  }

  /** Step 2 on a non-empty stripped text with whitespace around it: each
      side becomes at most one space. */
  lemma {:induction false} CollapseAround(u: string, m: string, w: string)
    requires AllSpace(u) && AllSpace(w) && IsStripped(m) && |m| > 0
    ensures Collapse(u + m + w) == (if |u| == 0 then [] else [' ']) + Collapse(m) + (if |w| == 0 then [] else [' '])
  {
    ConcatAssoc(u, m, w);
    CollapseLeading(u, m + w);
    CollapseTrailing(m, w);
    ConcatAssoc(if |u| == 0 then [] else [' '], Collapse(m), if |w| == 0 then [] else [' ']);
  }

  lemma {:induction false} CollapseKeepsStripped(m: string)
    requires IsStripped(m)
    ensures IsStripped(Collapse(m))
  {
    if |m| > 0 {
      CollapseLast(m);
    }
  }

  /** Steps 2 and 3 on a stripped text with whitespace around it. */
  lemma {:induction false} CollapseSurrounded(u: string, m: string, w: string)
    requires AllSpace(u) && AllSpace(w) && IsStripped(m)
    ensures Strip(Collapse(u + m + w)) == Collapse(m)
  {
    if |m| == 0 {
      assert u + m + w == u + w;
      assert AllSpace(u + w);
      CollapseAllSpace(u + w);
      StripEmpty(Collapse(u + w));
    } else {
      CollapseAround(u, m, w);
      CollapseKeepsStripped(m);
      StripSurrounded(if |u| == 0 then [] else [' '], Collapse(m), if |w| == 0 then [] else [' ']);
    }
  }

  lemma {:induction false} ReplaceAppend(a: string, b: string)
    ensures Replace(a + b) == Replace(a) + Replace(b)
  {
  }

  /** Step 1 maps whitespace to whitespace and nothing else to it. */
  lemma {:induction false} ReplaceKeepsStripping(x: string)
    ensures AllSpace(x) ==> AllSpace(Replace(x))
    ensures IsStripped(x) ==> IsStripped(Replace(x))
  {
  }

  /** Step 1 on `s` is step 1 on `s.strip()` with whitespace around it. */
  lemma {:induction false} ReplaceAround(s: string) returns (U: string, W: string)
    ensures Replace(s) == U + Replace(Strip(s)) + W
    ensures AllSpace(U) && AllSpace(W) && IsStripped(Replace(Strip(s)))
  {
    var m := Strip(s);
    var u, w := StripParts(s);
    ReplaceAppend(u + m, w);
    ReplaceAppend(u, m);
    U, W := Replace(u), Replace(w);
    ReplaceKeepsStripping(u);
    ReplaceKeepsStripping(m);
    ReplaceKeepsStripping(w);
  }

  /** Step 3 has nothing to do after step 2 on a stripped text. */
  lemma {:induction false} CollapseStripFixes(m: string)
    requires IsStripped(m)
    ensures Strip(Collapse(m)) == Collapse(m)
  {
    CollapseKeepsStripped(m);
    StripSurrounded([], Collapse(m), []);
    assert [] + Collapse(m) + [] == Collapse(m);
  }

  lemma {:induction false} FirstStepsStrip(s: string)
    ensures Strip(Collapse(Replace(Strip(s)))) == Strip(Collapse(Replace(s)))
  {
    var U, W := ReplaceAround(s);
    var M := Replace(Strip(s));
    CollapseSurrounded(U, M, W);
    CollapseStripFixes(M);
  }

  /** `normalize_text(s.strip()) == normalize_text(s)`. */
  lemma {:induction false} NormalizeStrip(s: string)
    ensures NormalizeText(Strip(s)) == NormalizeText(s)
  {
    FirstStepsStrip(s);
  }

  // ---------------------------------------------------------------------
  // What becomes of whitespace between two non-whitespace characters.
  // ---------------------------------------------------------------------

  /** Step 2 never joins a run across a non-whitespace character. */
  lemma {:induction false} CollapseAppend(m: string, v: string)
    requires |m| > 0 ==> !IsSpace(m[|m| - 1])
    ensures Collapse(m + v) == Collapse(m) + Collapse(v)
    decreases |m|
  {
    if |m| == 0 {
      assert m + v == v;
    } else {
      var k := SkipRun(m);
      SkipRunAppend(m, v);
      assert |m[k..]| > 0 ==> m[k..][|m[k..]| - 1] == m[|m| - 1];
      CollapseAppend(m[k..], v);
      ConsAssoc(Squash(m[0]), Collapse(m[k..]), Collapse(v));
    }
  }

  /** Where step 4 resumes inside `x` does not depend on what follows `x`
      when `x` ends with a non-whitespace character. */
  lemma {:induction false} GapEndAppend(x: string, y: string)
    requires |x| > 1 && !IsSpace(x[|x| - 1])
    ensures GapEnd(x + y) == GapEnd(x) < |x|
  {
    if IsIdeograph(x[0]) {
      var k := RunEnd(x, 1, IsSpace);
      assert k < |x|;
      RunEndExact(x + y, 1, k, IsSpace);
    }
  }

  lemma SliceAppend(x: string, z: string, g: nat)
    requires g <= |x|
    ensures (x + z)[g..] == x[g..] + z
  {
  }

  lemma DropGapsUnfold(s: string)
    requires |s| > 0
    ensures DropGaps(s) == [s[0]] + DropGaps(s[GapEnd(s)..])
  {
  }

  /** Where step 4 resumes after a non-whitespace character followed by
      exactly one space. */
  lemma {:induction false} GapEndOfSpace(s: string)
    requires |s| > 2 && !IsSpace(s[0]) && s[1] == ' ' && !IsSpace(s[2])
    ensures GapEnd(s) == if IsIdeograph(s[0]) && IsIdeograph(s[2]) then 2 else 1
  {
    if IsIdeograph(s[0]) {
      RunEndExact(s, 1, 2, IsSpace);
    }
  }

  /** Step 4 on a character, one space and the rest: the space goes exactly
      when an ideograph stands on both sides of it. */
  lemma {:induction false} DropGapsSpaceAfter(s: string)
    requires |s| > 2 && !IsSpace(s[0]) && s[1] == ' ' && !IsSpace(s[2])
    ensures DropGaps(s) ==
      [s[0]] + (if IsIdeograph(s[0]) && IsIdeograph(s[2]) then [] else [' ']) + DropGaps(s[2..])
  {
    GapEndOfSpace(s);
    DropGapsUnfold(s);
    if IsIdeograph(s[0]) && IsIdeograph(s[2]) {
      assert [s[0]] + [] == [s[0]];
    } else {
      var t := s[1..];
      assert DropGaps(t) == [' '] + DropGaps(s[2..]) by {
        assert t[1..] == s[2..];
        DropGapsUnfold(t);
      }
      ConsAssoc(s[0], [' '], DropGaps(s[2..]));
    }
  }

  /** Step 4 on two texts with one space between them. */
  lemma {:induction false} DropGapsJoin(x: string, y: string)
    requires |x| > 0 && !IsSpace(x[|x| - 1]) && |y| > 0 && !IsSpace(y[0])
    ensures DropGaps(x + [' '] + y) ==
      DropGaps(x) + (if IsIdeograph(x[|x| - 1]) && IsIdeograph(y[0]) then [] else [' ']) + DropGaps(y)
    decreases |x|
  {
    if |x| == 1 {
      var s := x + [' '] + y;
      assert s[0] == x[0] && s[1] == ' ' && s[2] == y[0] && s[2..] == y;
      assert DropGaps(x) == [x[0]];
      DropGapsSpaceAfter(s);
    } else {
      DropGapsJoinStep(x, y);
    }
  }

  /** The inductive step of `DropGapsJoin`. */
  lemma {:induction false} DropGapsJoinStep(x: string, y: string)
    requires |x| > 1 && !IsSpace(x[|x| - 1]) && |y| > 0 && !IsSpace(y[0])
    ensures DropGaps(x + [' '] + y) ==
      DropGaps(x) + (if IsIdeograph(x[|x| - 1]) && IsIdeograph(y[0]) then [] else [' ']) + DropGaps(y)
    decreases |x|, 0
  {
    var mid: string := if IsIdeograph(x[|x| - 1]) && IsIdeograph(y[0]) then [] else [' '];
    var rest := [' '] + y;
    var s := x + rest;
    assert x + [' '] + y == s;
    var g := GapEnd(x);
    var x' := x[g..];
    assert DropGaps(s) == [x[0]] + DropGaps(x' + rest) by {
      GapEndAppend(x, rest);
      SliceAppend(x, rest, g);
      DropGapsUnfold(s);
    }
    assert DropGaps(x' + rest) == DropGaps(x') + mid + DropGaps(y) by {
      assert x'[|x'| - 1] == x[|x| - 1];
      assert x' + [' '] + y == x' + rest;
      DropGapsJoin(x', y);
    }
    DropGapsUnfold(x);
    ConcatAssoc([x[0]], DropGaps(x') + mid, DropGaps(y));
    ConcatAssoc([x[0]], DropGaps(x'), mid);
  }

  /** Step 1 on stripped text around whitespace. */
  lemma {:induction false} ReplaceJoin(a: string, w: string, b: string)
    requires IsStripped(a) && |a| > 0 && IsStripped(b) && |b| > 0 && AllSpace(w)
    ensures Replace(a + w + b) == Replace(a) + Replace(w) + Replace(b)
    ensures IsStripped(Replace(a)) && IsStripped(Replace(b)) && AllSpace(Replace(w))
    ensures Replace(a)[|a| - 1] == a[|a| - 1] && Replace(b)[0] == b[0]
  {
    ReplaceAppend(a + w, b);
    ReplaceAppend(a, w);
    ReplaceKeepsStripping(a);
    ReplaceKeepsStripping(w);
    ReplaceKeepsStripping(b);
  }

  /** Step 2 on stripped text around whitespace: the whitespace becomes
      one space. */
  lemma {:induction false} CollapseJoin(A: string, W: string, B: string)
    requires IsStripped(A) && |A| > 0 && IsStripped(B) && |B| > 0 && AllSpace(W) && |W| > 0
    ensures Collapse(A + W + B) == Collapse(A) + [' '] + Collapse(B)
    ensures IsStripped(Collapse(A)) && IsStripped(Collapse(B))
    ensures Collapse(A)[|Collapse(A)| - 1] == A[|A| - 1] && Collapse(B)[0] == B[0]
  {
    ConcatAssoc(A, W, B);
    CollapseAppend(A, W + B);
    CollapseLeading(W, B);
    ConcatAssoc(Collapse(A), [' '], Collapse(B));
    CollapseLast(A);
    CollapseKeepsStripped(A);
    CollapseKeepsStripped(B);
  }

  /** Stripping a stripped text changes nothing. */
  lemma {:induction false} StripFixes(c: string)
    requires IsStripped(c)
    ensures Strip(c) == c
  {
    StripSurrounded([], c, []);
    assert [] + c + [] == c;
  }

  /** Steps 1 to 3 on stripped text around whitespace: each side goes
      through steps 1 and 2 on its own, with one space between them. */
  lemma {:induction false} FirstStepsJoin(a: string, w: string, b: string)
    requires IsStripped(a) && |a| > 0 && IsStripped(b) && |b| > 0
    requires AllSpace(w) && |w| > 0
    ensures var CA, CB := Collapse(Replace(a)), Collapse(Replace(b));
      && Strip(Collapse(Replace(a + w + b))) == CA + [' '] + CB
      && IsStripped(CA) && IsStripped(CB) && |CA| > 0 && |CB| > 0
      && CA[|CA| - 1] == a[|a| - 1] && CB[0] == b[0]
  {
    var A, W, B := Replace(a), Replace(w), Replace(b);
    ReplaceJoin(a, w, b);
    CollapseJoin(A, W, B);
    StripFixes(Collapse(A) + [' '] + Collapse(B));
  }

  /** `normalize_text` of two stripped texts with whitespace between them:
      each side is normalized on its own, and the whitespace between them
      becomes one space, or nothing when it stands between two ideographs. */
  lemma {:induction false} NormalizeJoin(a: string, w: string, b: string)
    requires IsStripped(a) && |a| > 0 && IsStripped(b) && |b| > 0
    requires AllSpace(w) && |w| > 0
    ensures NormalizeText(a + w + b) ==
      NormalizeText(a) + (if IsIdeograph(a[|a| - 1]) && IsIdeograph(b[0]) then "" else " ") + NormalizeText(b)
  {
    var CA, CB := Collapse(Replace(a)), Collapse(Replace(b));
    FirstStepsJoin(a, w, b);
    assert NormalizeText(a) == DropGaps(CA) by {
      CollapseStripFixes(Replace(a));
    }
    assert NormalizeText(b) == DropGaps(CB) by {
      CollapseStripFixes(Replace(b));
    }
    DropGapsJoin(CA, CB);
  }

  // ---------------------------------------------------------------------
  // Normalizing never creates an option label.
  // ---------------------------------------------------------------------

  lemma {:induction false} SliceNoLabel(s: string, a: nat, b: nat)
    requires a <= b <= |s| && NoLabel(s)
    ensures NoLabel(s[a..b])
  {
    forall p: nat | p < b - a ensures !IsLabelAt(s[a..b], p) {
      assert !IsLabelAt(s, a + p);
    }
  }

  lemma {:induction false} StripNoLabel(c: string)
    requires NoLabel(c)
    ensures NoLabel(Strip(c))
  {
    SliceNoLabel(c, StripStart(c), StripStop(c));
  }

  lemma {:induction false} ConsNoLabel(c: char, r: string)
    requires NoLabel(r) && (|r| > 0 && IsAnswerLetter(c) ==> !IsLabelSep(r[0]))
    ensures NoLabel([c] + r)
  {
    forall p: nat | 0 < p < |r| + 1 ensures !IsLabelAt([c] + r, p) {
      assert !IsLabelAt(r, p - 1);
    }
  }

  lemma {:induction false} CollapseNoLabel(s: string)
    requires NoLabel(s)
    ensures NoLabel(Collapse(s))
    decreases |s|
  {
    if |s| > 0 {
      var k := SkipRun(s);
      SliceNoLabel(s, k, |s|);
      assert s[k..|s|] == s[k..];
      CollapseNoLabel(s[k..]);
      assert !IsLabelAt(s, 0);
      ConsNoLabel(Squash(s[0]), Collapse(s[k..]));
    }
  }

  lemma {:induction false} DropGapsNoLabel(s: string)
    requires NoLabel(s)
    ensures NoLabel(DropGaps(s))
    decreases |s|
  {
    if |s| > 0 {
      var g := GapEnd(s);
      SliceNoLabel(s, g, |s|);
      assert s[g..|s|] == s[g..];
      DropGapsNoLabel(s[g..]);
      assert !IsLabelAt(s, 0);
      ConsNoLabel(s[0], DropGaps(s[g..]));
    }
  }

  /** No option label appears in `normalize_text(s)` unless one was in `s`:
      step 4 only joins two ideographs, and the other steps put a space
      where whitespace was. */
  lemma {:induction false} NormalizeNoLabel(s: string)
    requires NoLabel(s)
    ensures NoLabel(NormalizeText(s))
  {
    forall p: nat | p < |s| ensures !IsLabelAt(Replace(s), p) {
      assert !IsLabelAt(s, p);
    }
    CollapseNoLabel(Replace(s));
    var c := Collapse(Replace(s));
    StripNoLabel(c);
    DropGapsNoLabel(Strip(c));
  }
}

=== FILE: options.dfy ===
/** `split_options`: cut the text of a question at its option labels
    (`A.`, `B、`, `Ｃ．` …) and keep the stripped, non-empty texts between
    them. */
module Options {
  import opened Wrappers
  import opened Chars
  import opened Strs
  import opened Scan
  import opened Patterns
  import opened Normalize

  // ---------------------------------------------------------------------
  // `re.split` with a capturing group.
  // ---------------------------------------------------------------------

  /** Spans in text order, each non-empty and inside a text of length `n`. */
  predicate Ordered(n: nat, ms: seq<Span>) {
    && (forall k :: 0 <= k < |ms| ==> ms[k].start < ms[k].end <= n)
    && (forall i, j :: 0 <= i < j < |ms| ==> ms[i].end <= ms[j].start)
  }

  /** Where the text after a span stops: at the next span, or at the end. */
  function NextStart(t: string, ms: seq<Span>): nat {
    if |ms| == 0 then |t| else ms[0].start
  }

  /** `re.split(pattern, t[p..])` for a pattern with one group that spans
      the whole match: the text before each match, the match itself, and
      the text after the last one. */
  function Pieces(t: string, ms: seq<Span>, p: nat): (r: seq<string>)
    requires Ordered(|t|, ms) && p <= NextStart(t, ms) <= |t|
    ensures |r| == 2 * |ms| + 1
    decreases |ms|
  {
    if |ms| == 0 then [t[p..]]
    else [t[p..ms[0].start], t[ms[0].start..ms[0].end]] + Pieces(t, ms[1..], ms[0].end)
  }

  /** The pieces joined back together. */
  function Join(parts: seq<string>): string
    decreases |parts|
  {
    if |parts| == 0 then [] else parts[0] + Join(parts[1..])
  }

  /** `re.split` loses nothing: joined, its pieces give back the text. */
  lemma {:induction false} PiecesJoin(t: string, ms: seq<Span>, p: nat)
    requires Ordered(|t|, ms) && p <= NextStart(t, ms) <= |t|
    ensures Join(Pieces(t, ms, p)) == t[p..]
    decreases |ms|
  {
    var r := Pieces(t, ms, p);
    if |ms| == 0 {
      assert r[1..] == [];
      assert Join(r) == t[p..] + [];
    } else {
      var a, e := ms[0].start, ms[0].end;
      var rest := Pieces(t, ms[1..], e);
      PiecesJoin(t, ms[1..], e);
      assert r[1..][1..] == rest;
      assert Join(r) == t[p..a] + (t[a..e] + Join(rest));
      assert t[p..] == t[p..a] + (t[a..e] + t[e..]);
    }
  }

  // ---------------------------------------------------------------------
  // The loop over the parts.
  // ---------------------------------------------------------------------

  /** `re.fullmatch(r"[A-HＡ-Ｈ][、\.．]", part)`. */
  predicate IsLabelToken(part: string) {
    |part| == 2 && IsLabelAt(part, 0)
  }

  /** The loop variables: `current_label` (`marker`), `current_text` and `options`. */
  datatype Acc = Acc(marker: string, text: string, options: seq<string>)

  /** `text.strip()`, appended when it is non-empty. */
  function KeepOne(text: string): (r: seq<string>)
    ensures |r| <= 1
    ensures forall i :: 0 <= i < |r| ==> r[i] == Strip(text) && |r[i]| > 0
    ensures |Strip(text)| > 0 ==> |r| == 1
  {
    var c := Strip(text);
    if |c| > 0 then [c] else []
  }

  /** The flush after a label and after the loop: only once a label has been
      seen is the collected text an option. */
  function Flush(acc: Acc): (r: seq<string>)
    ensures |acc.options| <= |r| <= |acc.options| + 1 && r[..|acc.options|] == acc.options
    ensures |r| > |acc.options| <==> |acc.marker| > 0 && |Strip(acc.text)| > 0
    ensures |r| > |acc.options| ==> r[|acc.options|] == Strip(acc.text)
  {
    acc.options + (if |acc.marker| > 0 then KeepOne(acc.text) else [])
  }

  /** One iteration of the loop over `parts`: the options collected so far
      are kept, at most one is added, and a label starts a new pending
      text. */
  function Step(acc: Acc, part: string): (r: Acc)
    ensures |acc.options| <= |r.options| <= |acc.options| + 1 && r.options[..|acc.options|] == acc.options
    ensures IsLabelToken(part) ==> r.marker == part && r.text == []
  {
    if |part| == 0 then acc
    else if IsLabelToken(part) then Acc(part, [], Flush(acc))
    else Acc(acc.marker, acc.text + part, acc.options)
  }

  /** The loop: options are only ever appended, at most one per part. */
  function Run(parts: seq<string>, acc: Acc): (r: Acc)
    ensures |acc.options| <= |r.options| <= |acc.options| + |parts|
    ensures r.options[..|acc.options|] == acc.options
    decreases |parts|
  {
    if |parts| == 0 then acc
    else
      var acc' := Step(acc, parts[0]);
      var r := Run(parts[1..], acc');
      assert r.options[..|acc.options|] == r.options[..|acc'.options|][..|acc.options|];
      r
  }

  /** `split_options(block)`: `[]` without a label; otherwise the parts of
      the text from the first label on, run through the loop and flushed. */
  function SplitOptions(block: string): (r: seq<string>)
    ensures FirstLabel(block).None? ==> r == []
  {
    match FirstLabel(block)
    case None => []
    case Some(f) =>
      var t := block[f..];
      var ms := LabelMatches(t);
      Flush(Run(Pieces(t, ms, 0), Acc([], [], [])))
  }

  // ---------------------------------------------------------------------
  // What the loop computes.
  // ---------------------------------------------------------------------

  /** The text after each label, up to the next label or the end. */
  function Segments(t: string, ms: seq<Span>): (r: seq<string>)
    requires Ordered(|t|, ms)
    ensures |r| == |ms|
    decreases |ms|
  {
    if |ms| == 0 then []
    else [t[ms[0].end..NextStart(t, ms[1..])]] + Segments(t, ms[1..])
  }

  /** The segments, stripped, without the ones that strip to nothing. */
  function KeepStripped(segs: seq<string>): (r: seq<string>)
    ensures |r| <= |segs|
    decreases |segs|
  {
    if |segs| == 0 then [] else KeepOne(segs[0]) + KeepStripped(segs[1..])
  }

  /** Every span is a label, and every label at or after `p` is one of the spans. */
  predicate LabelsExactly(t: string, ms: seq<Span>, p: nat) {
    && (forall k :: 0 <= k < |ms| ==> ms[k].end == ms[k].start + 2 && IsLabelAt(t, ms[k].start))
    && (forall q :: p <= q < |t| && IsLabelAt(t, q) ==> exists k :: 0 <= k < |ms| && ms[k].start == q)
  }

  /** Text in which no label starts is never taken for a label. */
  lemma GapNotToken(t: string, a: nat, b: nat)
    requires a <= b <= |t| && forall q :: a <= q < b ==> !IsLabelAt(t, q)
    ensures !IsLabelToken(t[a..b])
  {
    if b == a + 2 {
      assert !IsLabelAt(t, a);
    }
  }

  /** A matched label is taken for a label. */
  lemma SpanIsToken(t: string, sp: Span)
    requires sp.end == sp.start + 2 <= |t| && IsLabelAt(t, sp.start)
    ensures IsLabelToken(t[sp.start..sp.end])
  {
  }

  /** No label starts in the text between `p` and the first span. */
  lemma NoLabelBefore(t: string, ms: seq<Span>, p: nat)
    requires Ordered(|t|, ms) && p <= NextStart(t, ms) <= |t| && LabelsExactly(t, ms, p)
    ensures forall q :: p <= q < NextStart(t, ms) ==> !IsLabelAt(t, q)
  {
    assert forall k :: 0 <= k < |ms| ==> NextStart(t, ms) <= ms[k].start;
  }

  /** Past the first span the remaining spans still cover every label. */
  lemma LabelsExactlyTail(t: string, ms: seq<Span>, p: nat)
    requires Ordered(|t|, ms) && |ms| > 0 && p <= ms[0].start && LabelsExactly(t, ms, p)
    ensures Ordered(|t|, ms[1..]) && LabelsExactly(t, ms[1..], ms[0].end)
  {
    forall q | ms[0].end <= q < |t| && IsLabelAt(t, q)
      ensures exists k :: 0 <= k < |ms[1..]| && ms[1..][k].start == q
    {
      var k :| 0 <= k < |ms| && ms[k].start == q;
      assert k != 0;
      assert ms[1..][k - 1].start == q;
    }
  }

  lemma KeepStrippedCons(x: string, rest: seq<string>)
    ensures KeepStripped([x] + rest) == KeepOne(x) + KeepStripped(rest)
  {
    assert ([x] + rest)[1..] == rest;
  }

  lemma SeqAssoc(a: seq<string>, b: seq<string>, c: seq<string>)
    ensures a + b + c == a + (b + c)
  {
  }

  /** The loop, run over the pieces from `p` on, adds the text before the
      first span to what it collects and then keeps one stripped segment per
      label. */
  lemma {:induction false} RunPieces(t: string, ms: seq<Span>, p: nat, acc: Acc)
    requires Ordered(|t|, ms) && p <= NextStart(t, ms) <= |t| && LabelsExactly(t, ms, p)
    ensures Flush(Run(Pieces(t, ms, p), acc)) ==
      Flush(Acc(acc.marker, acc.text + t[p..NextStart(t, ms)], acc.options)) + KeepStripped(Segments(t, ms))
    decreases |ms|
  {
    NoLabelBefore(t, ms, p);
    GapNotToken(t, p, NextStart(t, ms));
    var first := t[p..NextStart(t, ms)];
    var acc1 := Acc(acc.marker, acc.text + first, acc.options);
    assert Step(acc, first) == acc1 by {
      if |first| == 0 {
        assert acc.text + first == acc.text;
      }
    }
    if |ms| == 0 {
      assert t[p..] == first;
      assert Run([first], acc) == Run([], acc1);
    } else {
      var sp := ms[0];
      var tok := t[sp.start..sp.end];
      SpanIsToken(t, sp);
      var acc2 := Acc(tok, [], Flush(acc1));
      LabelsExactlyTail(t, ms, p);
      var rest := Pieces(t, ms[1..], sp.end);
      assert Pieces(t, ms, p) == [first, tok] + rest;
      assert Run([first, tok] + rest, acc) == Run([tok] + rest, acc1) by {
        assert ([first, tok] + rest)[1..] == [tok] + rest;
      }
      assert Run([tok] + rest, acc1) == Run(rest, acc2) by {
        assert ([tok] + rest)[1..] == rest;
      }
      RunPieces(t, ms[1..], sp.end, acc2);
      var seg := t[sp.end..NextStart(t, ms[1..])];
      assert [] + seg == seg;
      assert Flush(Acc(tok, [] + seg, Flush(acc1))) == Flush(acc1) + KeepOne(seg);
      KeepStrippedCons(seg, Segments(t, ms[1..]));
      SeqAssoc(Flush(acc1), KeepOne(seg), KeepStripped(Segments(t, ms[1..])));
    }
  }

  /** Every label of `t` starts one of the scan's matches. */
  lemma LabelListed(t: string, q: nat)
    requires q < |t| && IsLabelAt(t, q)
    ensures q in Starts(LabelMatches(t))
  {
    LabelMatchesAreAll(t);
    PositionsComplete(|t|, 0, LabelStart(t));
    assert LabelStart(t)(q);
  }

  /** The labels the scan reports in `t` are exactly its labels. */
  lemma LabelMatchesExactly(t: string)
    ensures Ordered(|t|, LabelMatches(t)) && LabelsExactly(t, LabelMatches(t), 0)
  {
    var ms := LabelMatches(t);
    forall q | 0 <= q < |t| && IsLabelAt(t, q) ensures exists k :: 0 <= k < |ms| && ms[k].start == q {
      LabelListed(t, q);
      var k :| 0 <= k < |ms| && Starts(ms)[k] == q;
    }
  }

  /** The text from the first label on, whose labels the loop sees. */
  function OptionsText(block: string): string {
    match FirstLabel(block)
    case None => []
    case Some(f) => block[f..]
  }

  /** The options are the segments after the labels of the text from the
      first label on, each stripped, the empty ones dropped, in text order:
      the label letters themselves play no part. */
  lemma SplitOptionsSegments(block: string)
    ensures FirstLabel(block).Some? ==>
      var t := OptionsText(block);
      SplitOptions(block) == KeepStripped(Segments(t, LabelMatches(t)))
  {
    if FirstLabel(block).Some? {
      var t := OptionsText(block);
      var ms := LabelMatches(t);
      LabelMatchesExactly(t);
      RunPieces(t, ms, 0, Acc([], [], []));
      assert Flush(Acc([], [] + t[0..NextStart(t, ms)], [])) == [];
    }
  }

  // ---------------------------------------------------------------------
  // Properties of the options.
  // ---------------------------------------------------------------------

  /** What `split_options` promises of each option it returns. */
  predicate GoodKept(o: string) {
    |o| > 0 && IsStripped(o) && NoLabel(o)
  }

  /** A property of every element of two sequences holds of every element
      of their concatenation. */
  lemma AllConcat<T>(a: seq<T>, b: seq<T>, P: T -> bool)
    requires forall i :: 0 <= i < |a| ==> P(a[i])
    requires forall i :: 0 <= i < |b| ==> P(b[i])
    ensures forall i :: 0 <= i < |a + b| ==> P((a + b)[i])
  {
    forall i | 0 <= i < |a + b| ensures P((a + b)[i]) {
      if i >= |a| {
        assert (a + b)[i] == b[i - |a|];
      }
    }
  }

  /** Every kept segment is non-empty and stripped, and holds no label
      when its segment holds none. */
  lemma {:induction false} KeepStrippedGood(segs: seq<string>)
    requires forall j :: 0 <= j < |segs| ==> NoLabel(segs[j])
    ensures forall i :: 0 <= i < |KeepStripped(segs)| ==> GoodKept(KeepStripped(segs)[i])
    decreases |segs|
  {
    if |segs| == 0 {
      assert |KeepStripped(segs)| == 0;
    } else {
      var tail := segs[1..];
      assert forall j :: 0 <= j < |tail| ==> tail[j] == segs[j + 1];
      KeepStrippedGood(tail);
      StripNoLabel(segs[0]);
      var one := KeepOne(segs[0]);
      assert forall i :: 0 <= i < |one| ==> GoodKept(one[i]);
      AllConcat(one, KeepStripped(tail), GoodKept);
      assert KeepStripped(segs) == one + KeepStripped(tail);
    }
  }

  /** When no segment strips to nothing, none is dropped. */
  lemma {:induction false} KeepStrippedAll(segs: seq<string>)
    requires forall j :: 0 <= j < |segs| ==> |Strip(segs[j])| > 0
    ensures |KeepStripped(segs)| == |segs|
    decreases |segs|
  {
    if |segs| > 0 {
      assert |Strip(segs[0])| > 0;
      assert forall j :: 0 <= j < |segs[1..]| ==> segs[1..][j] == segs[j + 1];
      KeepStrippedAll(segs[1..]);
    }
  }

  /** A slice in which no label starts holds no label. */
  lemma SliceFreeOfLabels(t: string, a: nat, b: nat)
    requires a <= b <= |t| && forall q :: a <= q < b ==> !IsLabelAt(t, q)
    ensures NoLabel(t[a..b])
  {
    var seg := t[a..b];
    forall q: nat | q < |seg| ensures !IsLabelAt(seg, q) {
      assert !IsLabelAt(t, a + q);
    }
  }

  /** No label starts inside a segment. */
  lemma {:induction false} SegmentsHaveNoLabel(t: string, ms: seq<Span>, p: nat)
    requires Ordered(|t|, ms) && p <= NextStart(t, ms) <= |t| && LabelsExactly(t, ms, p)
    ensures forall j :: 0 <= j < |Segments(t, ms)| ==> NoLabel(Segments(t, ms)[j])
    decreases |ms|
  {
    if |ms| > 0 {
      LabelsExactlyTail(t, ms, p);
      SegmentsHaveNoLabel(t, ms[1..], ms[0].end);
      NoLabelBefore(t, ms[1..], ms[0].end);
      SliceFreeOfLabels(t, ms[0].end, NextStart(t, ms[1..]));
      var segs, rest := Segments(t, ms), Segments(t, ms[1..]);
      assert segs == [t[ms[0].end..NextStart(t, ms[1..])]] + rest;
      assert forall j :: 0 < j < |segs| ==> segs[j] == rest[j - 1];
    }
  }

  /** `split_options` finds nothing without a label. Otherwise every option
      is non-empty, has no whitespace at either end and holds no label, and
      there are at most as many options as labels from the first one on. */
  lemma OptionsShape(block: string)
    ensures FirstLabel(block).None? ==> SplitOptions(block) == []
    ensures |SplitOptions(block)| <= |LabelMatches(OptionsText(block))|
    ensures forall i :: 0 <= i < |SplitOptions(block)| ==>
      var o := SplitOptions(block)[i];
      |o| > 0 && IsStripped(o) && NoLabel(o)
  {
    if FirstLabel(block).Some? {
      var t := OptionsText(block);
      var ms := LabelMatches(t);
      var segs := Segments(t, ms);
      SplitOptionsSegments(block);
      LabelMatchesExactly(t);
      SegmentsHaveNoLabel(t, ms, 0);
      KeepStrippedGood(segs);
    }
  }
}

module OptionsExamples {
  import opened Wrappers
  import opened Strs
  import opened Scan
  import opened Patterns
  import opened Options

  /** The scan over `A.B.` reports both labels. */
  lemma LabelsOnlyMatches()
    ensures LabelMatches("A.B.") == [Span(0, 2), Span(2, 4)]
  {
    var t := "A.B.";
    assert IsLabelAt(t, 0) && IsLabelAt(t, 2);
    LabelsDisjoint(t);
    assert FindIter(4, 4, LabelAt(t)) == [];
    assert FindIter(4, 2, LabelAt(t)) == [Span(2, 4)];
  }

  /** `A.B.` starts with a label, so all of it is option text. */
  lemma LabelsOnlyText()
    ensures FirstLabel("A.B.").Some? && OptionsText("A.B.") == "A.B."
  {
    assert IsLabelAt("A.B.", 0);
    assert FirstLabel("A.B.") == Some(0);
  }

  /** Both segments of `A.B.` are empty. */
  lemma LabelsOnlySegments()
    ensures KeepStripped(Segments("A.B.", [Span(0, 2), Span(2, 4)])) == []
  {
    var t, ms := "A.B.", [Span(0, 2), Span(2, 4)];
    assert ms[1..] == [Span(2, 4)] && ms[1..][1..] == [];
    assert Segments(t, ms[1..][1..]) == [];
    assert Segments(t, ms[1..]) == [t[4..4]] + [];
    assert Segments(t, ms) == [t[2..2]] + [t[4..4]];
    assert t[2..2] == [] && t[4..4] == [];
    StripEmpty([]);
    assert KeepStripped([[], []]) == [];
  }

  /** Labels with nothing between them give no options. */
  lemma LabelsOnly()
    ensures SplitOptions("A.B.") == []
  {
    LabelsOnlyText();
    LabelsOnlyMatches();
    LabelsOnlySegments();
    SplitOptionsSegments("A.B.");
  }

  /** The scan over `A.x C.y` reports the labels at 0 and 4. */
  lemma SkippedMatches()
    ensures LabelMatches("A.x C.y") == [Span(0, 2), Span(4, 6)]
  {
    var t := "A.x C.y";
    assert IsLabelAt(t, 0) && IsLabelAt(t, 4);
    assert !IsLabelAt(t, 2) && !IsLabelAt(t, 3) && !IsLabelAt(t, 6);
    LabelsDisjoint(t);
    assert FindIter(7, 7, LabelAt(t)) == [];
    assert FindIter(7, 6, LabelAt(t)) == [];
    assert FindIter(7, 4, LabelAt(t)) == [Span(4, 6)];
    assert FindIter(7, 3, LabelAt(t)) == [Span(4, 6)];
    assert FindIter(7, 2, LabelAt(t)) == [Span(4, 6)];
  }

  /** The segments of `A.x C.y` are `x ` and `y`. */
  lemma SkippedSegments()
    ensures Segments("A.x C.y", [Span(0, 2), Span(4, 6)]) == ["x ", "y"]
  {
    var t, ms := "A.x C.y", [Span(0, 2), Span(4, 6)];
    assert ms[1..] == [Span(4, 6)] && ms[1..][1..] == [];
    assert Segments(t, ms[1..][1..]) == [];
    assert Segments(t, ms[1..]) == [t[6..7]] + [];
    assert Segments(t, ms) == [t[2..4]] + [t[6..7]];
    assert t[2..4] == "x " && t[6..7] == "y";
  }

  /** ... which strip to `x` and `y`. */
  lemma SkippedKept()
    ensures KeepStripped(["x ", "y"]) == ["x", "y"]
  {
    assert "x " == [] + "x" + " " && "y" == [] + "y" + [];
    StripSurrounded([], "x", " ");
    StripSurrounded([], "y", []);
    assert ["x ", "y"][1..] == ["y"] && ["y"][1..] == [];
    assert KeepStripped(["y"]) == ["y"] + [];
  }

  /** A missing `B` leaves no hole: the options after `A` and `C` are the
      first and the second. */
  lemma SkippedLabel()
    ensures SplitOptions("A.x C.y") == ["x", "y"]
  {
    assert IsLabelAt("A.x C.y", 0);
    assert FirstLabel("A.x C.y") == Some(0);
    assert OptionsText("A.x C.y") == "A.x C.y";
    SkippedMatches();
    SkippedSegments();
    SkippedKept();
    SplitOptionsSegments("A.x C.y");
  }
}

=== FILE: patterns.dfy ===
/** The four regular expressions of the parser, each given by what it
    matches when tried at one position, together with the position predicate
    that says where `finditer` reports its matches.

    - `(\\d+)[、\\.．]`          question numbers of choice sections
    - `(\\d+)、（(√|×)）`         question numbers and marks of the judge section
    - `（\\s*([A-HＡ-Ｈ\\s]+)\\s*）`  answer annotations
    - `[A-HＡ-Ｈ][、\\.．]`        option labels */
module Patterns {
  import opened Wrappers
  import opened Chars
  import opened Strs
  import opened Scan

  // ---------------------------------------------------------------------
  // Patterns that start with `(\d+)`.
  // ---------------------------------------------------------------------

  /** What follows the digits: `[、\.．]` for a choice question number,
      `、（(√|×)）` for a judge question. */
  datatype Tail = Numbered | Judged

  /** Where the tail that starts at `q` ends, if it is there. A tail is a
      non-empty run of non-digits inside `s`. */
  function TailEnd(s: string, t: Tail, q: nat): (r: Option<nat>)
    ensures r.Some? ==> q < r.value <= |s| && forall j :: q <= j < r.value ==> !IsDigit(s[j])
  {
    match t
    case Numbered =>
      if q < |s| && IsLabelSep(s[q]) then Some(q + 1) else None
    case Judged =>
      if q + 4 <= |s| && s[q] == '、' && s[q + 1] == '（' && IsJudgeMark(s[q + 2]) && s[q + 3] == '）'
      then Some(q + 4) else None
  }

  /** `(\d+)` followed by the tail, tried at `p`. The greedy `\d+` can only
      succeed with the whole digit run: a shorter run is followed by a
      digit, which no tail accepts. */
  function DigitLedEnd(s: string, t: Tail, p: nat): (r: Option<nat>)
    ensures r.Some? ==> p < r.value <= |s|
    ensures r.Some? ==> p < |s| && p < RunEnd(s, p, IsDigit) < r.value
    ensures r.Some? ==> forall j :: p <= j < r.value ==> (IsDigit(s[j]) <==> j < RunEnd(s, p, IsDigit))
    ensures r.None? && p < |s| && IsDigit(s[p]) ==> TailEnd(s, t, RunEnd(s, p, IsDigit)).None?
  {
    if p < |s| && IsDigit(s[p]) then TailEnd(s, t, RunEnd(s, p, IsDigit)) else None
  }

  function DigitLedAt(s: string, t: Tail): nat -> Option<nat> {
    (p: nat) => DigitLedEnd(s, t, p)
  }

  /** Where `finditer` reports a digit-led match: at the start of a maximal
      run of digits that the tail follows. */
  predicate IsDigitLedAt(s: string, t: Tail, p: nat) {
    && p < |s| && IsDigit(s[p])
    && (p == 0 || !IsDigit(s[p - 1]))
    && TailEnd(s, t, RunEnd(s, p, IsDigit)).Some?
  }

  function DigitLedStart(s: string, t: Tail): nat -> bool {
    (q: nat) => IsDigitLedAt(s, t, q)
  }

  lemma DigitLedAnchored(s: string, t: Tail)
    ensures Anchored(|s|, DigitLedAt(s, t))
  {
  }

  /** A digit just before a run gives the same run end, hence the same match. */
  lemma DigitBefore(s: string, t: Tail, p: nat)
    requires 0 < p <= |s| && IsDigit(s[p - 1])
    ensures RunEnd(s, p - 1, IsDigit) == RunEnd(s, p, IsDigit)
    ensures DigitLedEnd(s, t, p - 1) == TailEnd(s, t, RunEnd(s, p, IsDigit))
    ensures p < |s| && IsDigit(s[p]) ==> DigitLedEnd(s, t, p - 1) == DigitLedEnd(s, t, p)
  {
  }

  /** Between the start of a match and its end no other match is reported:
      the positions inside the run follow a digit, the tail holds no digit. */
  lemma NoStartInsideMatch(s: string, t: Tail, p: nat, e: nat)
    requires DigitLedEnd(s, t, p) == Some(e)
    ensures forall i :: p < i < e ==> !IsDigitLedAt(s, t, i)
    ensures !IsDigit(s[e - 1])
  {
    var q := RunEnd(s, p, IsDigit);
    assert TailEnd(s, t, q) == Some(e);
    forall i | p < i < e ensures !IsDigitLedAt(s, t, i) {
      if i <= q {
        assert IsDigit(s[i - 1]);
      } else {
        assert !IsDigit(s[i]);
      }
    }
  }

  /** One step of the scan at `p`, on both sides of `DigitLedScan`. */
  lemma DigitLedStep(s: string, t: Tail, p: nat)
    requires p < |s|
    requires p == 0 || !IsDigit(s[p - 1]) || DigitLedEnd(s, t, p - 1).None?
    ensures Anchored(|s|, DigitLedAt(s, t))
    ensures DigitLedEnd(s, t, p).Some? ==>
      var e := DigitLedEnd(s, t, p).value;
      && FindIter(|s|, p, DigitLedAt(s, t)) == [Span(p, e)] + FindIter(|s|, e, DigitLedAt(s, t))
      && Positions(|s|, p, DigitLedStart(s, t)) == [p] + Positions(|s|, e, DigitLedStart(s, t))
      && !IsDigit(s[e - 1])
    ensures DigitLedEnd(s, t, p).None? ==>
      && FindIter(|s|, p, DigitLedAt(s, t)) == FindIter(|s|, p + 1, DigitLedAt(s, t))
      && Positions(|s|, p, DigitLedStart(s, t)) == Positions(|s|, p + 1, DigitLedStart(s, t))
  {
    DigitLedAnchored(s, t);
    var at := DigitLedAt(s, t);
    var P := DigitLedStart(s, t);
    assert at(p) == DigitLedEnd(s, t, p);
    if DigitLedEnd(s, t, p).Some? {
      var e := DigitLedEnd(s, t, p).value;
      assert FindIter(|s|, p, at) == [Span(p, e)] + FindIter(|s|, e, at);
      assert P(p) by {
        if 0 < p && IsDigit(s[p - 1]) {
          DigitBefore(s, t, p);
        }
      }
      assert Positions(|s|, p, P) == [p] + Positions(|s|, p + 1, P);
      NoStartInsideMatch(s, t, p, e);
      PositionsSkip(|s|, p + 1, e, P);
    } else {
      assert FindIter(|s|, p, at) == FindIter(|s|, p + 1, at);
      assert !P(p);
      assert Positions(|s|, p, P) == [] + Positions(|s|, p + 1, P);
      assert [] + Positions(|s|, p + 1, P) == Positions(|s|, p + 1, P);
    }
  }

  /** The scan of a digit-led pattern reports exactly the starts of the
      maximal digit runs that the tail follows. `p` is where the scan
      resumes: at the start of the text, after a non-digit, or after a
      position where the pattern failed. */
  lemma {:induction false} DigitLedScan(s: string, t: Tail, p: nat)
    requires p <= |s|
    requires p == 0 || !IsDigit(s[p - 1]) || DigitLedEnd(s, t, p - 1).None?
    ensures Anchored(|s|, DigitLedAt(s, t)) &&
            Starts(FindIter(|s|, p, DigitLedAt(s, t))) == Positions(|s|, p, DigitLedStart(s, t))
    decreases |s| - p
  {
    DigitLedAnchored(s, t);
    if p < |s| {
      DigitLedStep(s, t, p);
      var m := DigitLedEnd(s, t, p);
      if m.Some? {
        DigitLedScan(s, t, m.value);
        StartsCons(Span(p, m.value), FindIter(|s|, m.value, DigitLedAt(s, t)));
      } else {
        DigitLedScan(s, t, p + 1);
      }
    }
  }

  // ---------------------------------------------------------------------
  // Question numbers: `(\d+)[、\.．]`.
  // ---------------------------------------------------------------------

  function ItemAt(s: string): nat -> Option<nat> {
    DigitLedAt(s, Numbered)
  }

  /** A question number of a choice section starts at `p`: a maximal run of
      digits immediately followed by `、`, `.` or `．`. Nothing anchors it
      to the start of a line. */
  predicate IsItemMarker(s: string, p: nat) {
    && p < |s| && IsDigit(s[p])
    && (p == 0 || !IsDigit(s[p - 1]))
    && var q := RunEnd(s, p, IsDigit); q < |s| && IsLabelSep(s[q])
  }

  function ItemStart(s: string): nat -> bool {
    (q: nat) => IsItemMarker(s, q)
  }

  /** `pattern.finditer(text)` for `(\d+)[、\.．]`. */
  function ItemMatches(s: string): (r: seq<Span>)
    ensures forall k :: 0 <= k < |r| ==> r[k].start < r[k].end <= |s| && DigitLedEnd(s, Numbered, r[k].start) == Some(r[k].end)
    ensures forall i, j :: 0 <= i < j < |r| ==> r[i].end <= r[j].start
  {
    DigitLedAnchored(s, Numbered);
    FindIter(|s|, 0, ItemAt(s))
  }

  /** The matches `finditer` reports are exactly the question numbers. */
  lemma ItemMatchesAreMarkers(s: string)
    ensures Starts(ItemMatches(s)) == Positions(|s|, 0, ItemStart(s))
  {
    forall q: nat | q < |s| ensures DigitLedStart(s, Numbered)(q) == IsItemMarker(s, q) {
      assert DigitLedStart(s, Numbered)(q) == IsDigitLedAt(s, Numbered, q);
    }
    DigitLedScan(s, Numbered, 0);
    PositionsExt(|s|, 0, DigitLedStart(s, Numbered), ItemStart(s));
  }

  /** Inside a match: the digits, then the separator as its last character. */
  lemma ItemMatchShape(s: string, sp: Span)
    requires DigitLedEnd(s, Numbered, sp.start) == Some(sp.end)
    ensures sp.start < sp.end - 1 == RunEnd(s, sp.start, IsDigit) && IsLabelSep(s[sp.end - 1])
  {
  }

  // ---------------------------------------------------------------------
  // Judge questions: `(\d+)、（(√|×)）`.
  // ---------------------------------------------------------------------

  function JudgeAt(s: string): nat -> Option<nat> {
    DigitLedAt(s, Judged)
  }

  /** A judge question starts at `p`: a maximal run of digits followed by
      `、（`, a mark `√` or `×`, and `）`. */
  predicate IsJudgeMarker(s: string, p: nat) {
    && p < |s| && IsDigit(s[p])
    && (p == 0 || !IsDigit(s[p - 1]))
    && var q := RunEnd(s, p, IsDigit);
       q + 4 <= |s| && s[q] == '、' && s[q + 1] == '（' && IsJudgeMark(s[q + 2]) && s[q + 3] == '）'
  }

  function JudgeStart(s: string): nat -> bool {
    (q: nat) => IsJudgeMarker(s, q)
  }

  /** `pattern.finditer(text)` for `(\d+)、（(√|×)）`. */
  function JudgeMatches(s: string): (r: seq<Span>)
    ensures forall k :: 0 <= k < |r| ==> r[k].start < r[k].end <= |s| && DigitLedEnd(s, Judged, r[k].start) == Some(r[k].end)
    ensures forall i, j :: 0 <= i < j < |r| ==> r[i].end <= r[j].start
  {
    DigitLedAnchored(s, Judged);
    FindIter(|s|, 0, JudgeAt(s))
  }

  lemma JudgeMatchesAreMarkers(s: string)
    ensures Starts(JudgeMatches(s)) == Positions(|s|, 0, JudgeStart(s))
  {
    forall q: nat | q < |s| ensures DigitLedStart(s, Judged)(q) == IsJudgeMarker(s, q) {
      assert DigitLedStart(s, Judged)(q) == IsDigitLedAt(s, Judged, q);
    }
    DigitLedScan(s, Judged, 0);
    PositionsExt(|s|, 0, DigitLedStart(s, Judged), JudgeStart(s));
  }

  /** Inside a match: the digits, `、（`, the mark, `）`. */
  lemma JudgeMatchShape(s: string, sp: Span)
    requires DigitLedEnd(s, Judged, sp.start) == Some(sp.end)
    ensures sp.start + 4 < sp.end && sp.end - 4 == RunEnd(s, sp.start, IsDigit)
    ensures s[sp.end - 4] == '、' && s[sp.end - 3] == '（' && IsJudgeMark(s[sp.end - 2]) && s[sp.end - 1] == '）'
    ensures forall k :: sp.start <= k < sp.end - 4 ==> IsDigit(s[k])
  {
  }

  // ---------------------------------------------------------------------
  // Answer annotations: `（\s*([A-HＡ-Ｈ\s]+)\s*）`.
  // ---------------------------------------------------------------------

  /** The characters the three inner parts of the annotation pattern accept. */
  predicate InAnnotation(c: char) {
    IsAnswerLetter(c) || IsSpace(c)
  }

  /** Every character between the parentheses is a letter A–H, Ａ–Ｈ or
      whitespace, so the closing `）` is the first character after the
      `（` outside that class, and there is at least one character
      between them. */
  function AnnotationEnd(s: string, p: nat): (r: Option<nat>)
    ensures r.Some? ==> p + 2 < r.value <= |s|
    ensures r.Some? ==> s[p] == '（' && s[r.value - 1] == '）'
    ensures r.Some? ==> forall k :: p < k < r.value - 1 ==> InAnnotation(s[k])
    ensures p < |s| && s[p] == '（' && p + 1 < |s| && InAnnotation(s[p + 1]) && r.None? ==>
      var q := RunEnd(s, p + 1, InAnnotation); q == |s| || s[q] != '）'
  {
    if p < |s| && s[p] == '（' then
      var q := RunEnd(s, p + 1, InAnnotation);
      if p + 1 < q < |s| && s[q] == '）' then Some(q + 1) else None
    else None
  }

  function AnnotationAt(s: string): nat -> Option<nat> {
    (p: nat) => AnnotationEnd(s, p)
  }

  predicate IsAnnotationAt(s: string, p: nat) {
    AnnotationEnd(s, p).Some?
  }

  function AnnotationStart(s: string): nat -> bool {
    (q: nat) => IsAnnotationAt(s, q)
  }

  lemma AnnotationsDisjoint(s: string)
    ensures Anchored(|s|, AnnotationAt(s)) && NonOverlapping(|s|, AnnotationAt(s))
  {
  }

  /** `re.finditer` for the annotation pattern. */
  function AnnotationMatches(s: string): (r: seq<Span>)
    ensures forall k :: 0 <= k < |r| ==> r[k].start < r[k].end <= |s| && AnnotationEnd(s, r[k].start) == Some(r[k].end)
    ensures forall i, j :: 0 <= i < j < |r| ==> r[i].end <= r[j].start
  {
    AnnotationsDisjoint(s);
    FindIter(|s|, 0, AnnotationAt(s))
  }

  /** Annotations cannot overlap, so `finditer` reports every one. */
  lemma AnnotationMatchesAreAll(s: string)
    ensures Starts(AnnotationMatches(s)) == Positions(|s|, 0, AnnotationStart(s))
  {
    AnnotationsDisjoint(s);
    ScanFindsEveryMatch(|s|, 0, AnnotationAt(s));
    PositionsExt(|s|, 0, MatchesAt(AnnotationAt(s)), AnnotationStart(s));
  }

  // ---------------------------------------------------------------------
  // Option labels: `[A-HＡ-Ｈ][、\.．]`.
  // ---------------------------------------------------------------------

  /** An option label at `p`: a letter A–H or Ａ–Ｈ, then `、`, `.` or `．`. */
  predicate IsLabelAt(s: string, p: nat) {
    p + 1 < |s| && IsAnswerLetter(s[p]) && IsLabelSep(s[p + 1])
  }

  function LabelAt(s: string): nat -> Option<nat> {
    (p: nat) => if IsLabelAt(s, p) then Some(p + 2) else None
  }

  function LabelStart(s: string): nat -> bool {
    (q: nat) => IsLabelAt(s, q)
  }

  /** `s` contains no option label. */
  predicate NoLabel(s: string) {
    forall p: nat :: p < |s| ==> !IsLabelAt(s, p)
  }

  /** A separator is not a letter, so two labels never overlap. */
  lemma LabelsDisjoint(s: string)
    ensures Anchored(|s|, LabelAt(s)) && NonOverlapping(|s|, LabelAt(s))
  {
  }

  /** `re.split` walks the same non-overlapping label matches as `finditer`. */
  function LabelMatches(s: string): (r: seq<Span>)
    ensures forall k :: 0 <= k < |r| ==> r[k].end == r[k].start + 2 <= |s| && IsLabelAt(s, r[k].start)
    ensures forall i, j :: 0 <= i < j < |r| ==> r[i].end <= r[j].start
  {
    LabelsDisjoint(s);
    FindIter(|s|, 0, LabelAt(s))
  }

  lemma LabelMatchesAreAll(s: string)
    ensures Starts(LabelMatches(s)) == Positions(|s|, 0, LabelStart(s))
  {
    LabelsDisjoint(s);
    ScanFindsEveryMatch(|s|, 0, LabelAt(s));
    PositionsExt(|s|, 0, MatchesAt(LabelAt(s)), LabelStart(s));
  }

  /** `re.search` for the label pattern: the first label of `s`. */
  function FirstLabel(s: string): (r: Option<nat>)
    ensures r.Some? ==> IsLabelAt(s, r.value) && forall q :: 0 <= q < r.value ==> !IsLabelAt(s, q)
    ensures r.None? ==> NoLabel(s)
  {
    FirstLabelFrom(s, 0)
  }

  function FirstLabelFrom(s: string, p: nat): (r: Option<nat>)
    ensures r.Some? ==> p <= r.value && IsLabelAt(s, r.value) && forall q :: p <= q < r.value ==> !IsLabelAt(s, q)
    ensures r.None? ==> forall q :: p <= q ==> !IsLabelAt(s, q)
    decreases |s| - p
  {
    if p + 1 >= |s| then None
    else if IsLabelAt(s, p) then Some(p)
    else FirstLabelFrom(s, p + 1)
  }
}

/** Question numbers are not tied to the start of a line. */
module PatternExamples {
  import opened Chars
  import opened Strs
  import opened Scan
  import opened Patterns

  /** In `1.x A.3.y` the `3.` inside the option text after `A.` is taken
      for a new question number, so the option text is cut there. */
  lemma NumberInsideOption()
    ensures 6 in Starts(ItemMatches("1.x A.3.y"))
  {
    var t := "1.x A.3.y";
    assert IsItemMarker(t, 6) by {
      assert RunEnd(t, 6, IsDigit) == 7 by {
        assert RunEnd(t, 7, IsDigit) == 7;
      }
    }
    assert ItemStart(t)(6);
    ItemMatchesAreMarkers(t);
    PositionsComplete(|t|, 0, ItemStart(t));
  }
}

=== FILE: scan.dfy ===
/** The part of Python's `re` engine the parser depends on: `finditer`
    (and `re.split`, which walks the same matches) scans left to right, tries
    the pattern at each position, and after a match resumes where it ended.

    A pattern is given here by what it matches when tried at exactly one
    position: `at(p) == Some(e)` means it matches `[p, e)`. */
module Scan {
  import opened Wrappers

  /** One match: the half-open slice `[start, end)` of the scanned text. */
  datatype Span = Span(start: nat, end: nat)

  /** Every match of `at` inside a text of length `n` is non-empty and stays inside it. */
  ghost predicate Anchored(n: nat, at: nat -> Option<nat>) {
    forall p: nat :: p < n && at(p).Some? ==> p < at(p).value <= n
  }

  /** `re.finditer` started at `p`. */
  function FindIter(n: nat, p: nat, at: nat -> Option<nat>): (r: seq<Span>)
    requires p <= n && Anchored(n, at)
    ensures forall k :: 0 <= k < |r| ==> p <= r[k].start < r[k].end <= n && at(r[k].start) == Some(r[k].end)
    ensures forall i, j :: 0 <= i < j < |r| ==> r[i].end <= r[j].start
    decreases n - p
  {
    if p == n then []
    else match at(p)
      case Some(e) => [Span(p, e)] + FindIter(n, e, at)
      case None => FindIter(n, p + 1, at)
  }

  /** The positions in `[p, n)` that satisfy `P`, in increasing order. */
  function Positions(n: nat, p: nat, P: nat -> bool): (r: seq<nat>)
    ensures forall k :: 0 <= k < |r| ==> p <= r[k] < n && P(r[k])
    ensures forall i, j :: 0 <= i < j < |r| ==> r[i] < r[j]
    decreases n - p
  {
    if p >= n then []
    else (if P(p) then [p] else []) + Positions(n, p + 1, P)
  }

  /** ... and it misses none of them. */
  lemma {:induction false} PositionsComplete(n: nat, p: nat, P: nat -> bool)
    ensures forall q :: p <= q < n && P(q) ==> q in Positions(n, p, P)
    decreases n - p
  {
    if p < n {
      PositionsComplete(n, p + 1, P);
      var r := Positions(n, p + 1, P);
      assert Positions(n, p, P) == (if P(p) then [p] else []) + r;
      forall q | p < q < n && P(q) ensures q in Positions(n, p, P) {
        assert q in r;
      }
    }
  }

  /** Positions that fail `P` can be skipped. */
  lemma {:induction false} PositionsSkip(n: nat, p: nat, q: nat, P: nat -> bool)
    requires p <= q
    requires forall i :: p <= i < q && i < n ==> !P(i)
    ensures Positions(n, p, P) == Positions(n, q, P)
    decreases q - p
  {
    if p < q && p < n {
      PositionsSkip(n, p + 1, q, P);
    }
  }

  function Starts(r: seq<Span>): (s: seq<nat>)
    ensures |s| == |r| && forall k :: 0 <= k < |r| ==> s[k] == r[k].start
  {
    seq(|r|, k requires 0 <= k < |r| => r[k].start)
  }

  lemma StartsCons(x: Span, r: seq<Span>)
    ensures Starts([x] + r) == [x.start] + Starts(r)
  {
  }

  /** No match can begin strictly inside another one. */
  ghost predicate NonOverlapping(n: nat, at: nat -> Option<nat>) {
    forall p: nat, q: nat :: p < q < n && at(p).Some? && q < at(p).value ==> at(q).None?
  }

  /** Where the pattern `at` matches, as a position predicate. */
  function MatchesAt(at: nat -> Option<nat>): nat -> bool {
    (q: nat) => at(q).Some?
  }

  /** One step of the scan at `p` when the pattern matches there. */
  lemma MatchStep(n: nat, p: nat, at: nat -> Option<nat>)
    requires p < n && Anchored(n, at) && NonOverlapping(n, at) && at(p).Some?
    ensures Starts(FindIter(n, p, at)) == [p] + Starts(FindIter(n, at(p).value, at))
    ensures Positions(n, p, MatchesAt(at)) == [p] + Positions(n, at(p).value, MatchesAt(at))
  {
    var e := at(p).value;
    StartsCons(Span(p, e), FindIter(n, e, at));
    PositionsSkip(n, p + 1, e, MatchesAt(at));
  }

  /** One step of the scan at `p` when the pattern fails there. */
  lemma MissStep(n: nat, p: nat, at: nat -> Option<nat>)
    requires p < n && Anchored(n, at) && at(p).None?
    ensures FindIter(n, p, at) == FindIter(n, p + 1, at)
    ensures Positions(n, p, MatchesAt(at)) == Positions(n, p + 1, MatchesAt(at))
  {
    assert [] + Positions(n, p + 1, MatchesAt(at)) == Positions(n, p + 1, MatchesAt(at));
  }

  /** For a pattern whose matches cannot overlap, the scan finds a match at
      exactly the positions where the pattern matches. */
  lemma {:induction false} ScanFindsEveryMatch(n: nat, p: nat, at: nat -> Option<nat>)
    requires p <= n && Anchored(n, at) && NonOverlapping(n, at)
    ensures Starts(FindIter(n, p, at)) == Positions(n, p, MatchesAt(at))
    decreases n - p
  {
    if p < n {
      if at(p).Some? {
        MatchStep(n, p, at);
        ScanFindsEveryMatch(n, at(p).value, at);
      } else {
        MissStep(n, p, at);
        ScanFindsEveryMatch(n, p + 1, at);
      }
    }
  }

  /** `Positions` depends only on which positions satisfy the predicate. */
  lemma {:induction false} PositionsExt(n: nat, p: nat, P: nat -> bool, Q: nat -> bool)
    requires forall q: nat :: p <= q < n ==> P(q) == Q(q)
    ensures Positions(n, p, P) == Positions(n, p, Q)
    decreases n - p
  {
    if p < n {
      PositionsExt(n, p + 1, P, Q);
    }
  }
  /** Between the `k`-th reported position and the next one (or the end of
      the text, after the last) no position satisfies `P`. */
  lemma NoneBetween(r: seq<Span>, n: nat, P: nat -> bool, k: nat, q: nat)
    requires Starts(r) == Positions(n, 0, P)
    requires k < |r| && r[k].start < q < n
    requires k + 1 < |r| ==> q < r[k + 1].start
    ensures !P(q)
  {
    var ps := Positions(n, 0, P);
    assert ps[k] == r[k].start < q;
    assert k + 1 < |ps| ==> q < ps[k + 1];
    forall j | 0 <= j < |ps| ensures ps[j] != q {
      if j < k {
        assert ps[j] < ps[k];
      } else if j > k + 1 {
        assert ps[k + 1] < ps[j];
      }
    }
    PositionsComplete(n, 0, P);
  }

  /** Before the first reported position no position satisfies `P`. */
  lemma NoneBefore(r: seq<Span>, n: nat, P: nat -> bool, q: nat)
    requires Starts(r) == Positions(n, 0, P)
    requires q < n && (|r| > 0 ==> q < r[0].start)
    ensures !P(q)
  {
    var ps := Positions(n, 0, P);
    assert |ps| > 0 ==> ps[0] == r[0].start && q < ps[0];
    forall j | 0 < j < |ps| ensures ps[j] != q {
      assert ps[0] < ps[j];
    }
    PositionsComplete(n, 0, P);
  }
}

=== FILE: sections.dfy ===
/** `find_section`: the part of a document between a start marker and the
    nearest end marker after it. */
module Sections {
  import opened Wrappers
  import opened Strs

  /** Which start marker the loop over `start_markers` settles on: the first
      one in list order that occurs anywhere in `text`, searched from
      position `k` of the list. */
  function FirstMarker(text: string, markers: seq<string>, k: nat): (r: Option<nat>)
    requires k <= |markers|
    ensures r.Some? ==> k <= r.value < |markers| && Find(text, markers[r.value], 0).Some?
    ensures r.Some? ==> forall j :: k <= j < r.value ==> Find(text, markers[j], 0).None?
    ensures r.None? ==> forall j :: k <= j < |markers| ==> Find(text, markers[j], 0).None?
    decreases |markers| - k
  {
    if k == |markers| then None
    else if Find(text, markers[k], 0).Some? then Some(k)
    else FirstMarker(text, markers, k + 1)
  }

  /** The first occurrences at or after `from` of the end markers, for those
      that occur, in list order (`end_idx_candidates`). */
  function Candidates(text: string, markers: seq<string>, from: nat): (c: seq<nat>)
    ensures |c| <= |markers|
    ensures forall i :: 0 <= i < |c| ==> from <= c[i] <= |text|
    decreases |markers|
  {
    if |markers| == 0 then []
    else
      var rest := Candidates(text, markers[1..], from);
      match Find(text, markers[0], from)
      case Some(i) => [i] + rest
      case None => rest
  }

  /** Every candidate is the first occurrence of some end marker. */
  lemma {:induction false} CandidatesAreOccurrences(text: string, markers: seq<string>, from: nat)
    ensures forall i :: 0 <= i < |Candidates(text, markers, from)| ==>
      exists k :: 0 <= k < |markers| && Find(text, markers[k], from) == Some(Candidates(text, markers, from)[i])
    decreases |markers|
  {
    if |markers| == 0 {
      assert Candidates(text, markers, from) == [];
    } else {
      CandidatesAreOccurrences(text, markers[1..], from);
      var rest := Candidates(text, markers[1..], from);
      var c := Candidates(text, markers, from);
      forall i | 0 <= i < |c|
        ensures exists k :: 0 <= k < |markers| && Find(text, markers[k], from) == Some(c[i])
      {
        if Find(text, markers[0], from).Some? && i == 0 {
          assert Find(text, markers[0], from) == Some(c[i]);
        } else {
          var i' := if Find(text, markers[0], from).Some? then i - 1 else i;
          assert c[i] == rest[i'];
          var k' :| 0 <= k' < |markers[1..]| && Find(text, markers[1..][k'], from) == Some(rest[i']);
          assert markers[1..][k'] == markers[k' + 1];
        }
      }
    }
  }

  /** Every end marker that occurs at or after `from` has its first such
      occurrence among the candidates. */
  lemma {:induction false} OccurrencesAreCandidates(text: string, markers: seq<string>, from: nat)
    ensures forall k :: 0 <= k < |markers| && Find(text, markers[k], from).Some? ==>
      Find(text, markers[k], from).value in Candidates(text, markers, from)
    decreases |markers|
  {
    if |markers| > 0 {
      OccurrencesAreCandidates(text, markers[1..], from);
      forall k | 0 <= k < |markers| && Find(text, markers[k], from).Some?
        ensures Find(text, markers[k], from).value in Candidates(text, markers, from)
      {
        if k > 0 {
          assert markers[1..][k - 1] == markers[k];
        }
      }
    }
  }

  /** `min(end_idx_candidates)`. */
  function SeqMin(c: seq<nat>): (m: nat)
    requires |c| > 0
    ensures m in c && forall i :: 0 <= i < |c| ==> m <= c[i]
  {
    if |c| == 1 then c[0]
    else var m := SeqMin(c[1..]); if c[0] <= m then c[0] else m
  }

  /** Where the section ends: the smallest candidate, or the end of the text
      when no end marker occurs after the start. */
  function SectionEnd(text: string, markers: seq<string>, from: nat): (e: nat)
    requires from <= |text|
    ensures from <= e <= |text|
    ensures e == |text| || e in Candidates(text, markers, from)
    ensures forall x :: x in Candidates(text, markers, from) ==> e <= x
  {
    var c := Candidates(text, markers, from);
    if |c| == 0 then |text| else SeqMin(c)
  }

  /** The section runs from `start` (just after the start marker) to `end`. */
  datatype Bounds = Bounds(start: nat, end: nat)

  function SectionBounds(text: string, starts: seq<string>, ends: seq<string>): (r: Option<Bounds>)
    ensures r.Some? ==> r.value.start <= r.value.end <= |text|
    ensures r.None? <==> forall k :: 0 <= k < |starts| ==> Find(text, starts[k], 0).None?
  {
    match FirstMarker(text, starts, 0)
    case None => None
    case Some(k) =>
      var b := Find(text, starts[k], 0).value + |starts[k]|;
      Some(Bounds(b, SectionEnd(text, ends, b)))
  }

  /** `find_section(text, start_markers, end_markers)`. */
  function FindSection(text: string, starts: seq<string>, ends: seq<string>): (r: string)
    ensures |r| <= |text|
    ensures (forall k :: 0 <= k < |starts| ==> Find(text, starts[k], 0).None?) ==> r == []
  {
    match SectionBounds(text, starts, ends)
    case None => []
    case Some(b) => text[b.start..b.end]
  }

  // ---------------------------------------------------------------------
  // What the section is.
  // ---------------------------------------------------------------------

  /** No start marker: no section. Otherwise the first listed marker that
      occurs decides, and the section starts right after its first
      occurrence. */
  lemma SectionStart(text: string, starts: seq<string>, ends: seq<string>)
    ensures SectionBounds(text, starts, ends).None? <==>
      forall k :: 0 <= k < |starts| ==> Find(text, starts[k], 0).None?
    ensures forall k :: (0 <= k < |starts| && Find(text, starts[k], 0).Some? &&
      forall j :: 0 <= j < k ==> Find(text, starts[j], 0).None?) ==>
        SectionBounds(text, starts, ends).Some? &&
        SectionBounds(text, starts, ends).value.start == Find(text, starts[k], 0).value + |starts[k]| &&
        OccursAt(text, starts[k], SectionBounds(text, starts, ends).value.start - |starts[k]|)
  {
  }

  /** No end marker begins inside the section, and it stops either at the
      end of the text or where an end marker begins. */
  lemma SectionEndSpec(text: string, ends: seq<string>, from: nat)
    requires from <= |text|
    ensures var e := SectionEnd(text, ends, from);
      && (forall k, j :: 0 <= k < |ends| && from <= j < e ==> !OccursAt(text, ends[k], j))
      && (e == |text| || exists k :: 0 <= k < |ends| && OccursAt(text, ends[k], e))
  {
    var e := SectionEnd(text, ends, from);
    var c := Candidates(text, ends, from);
    CandidatesAreOccurrences(text, ends, from);
    OccurrencesAreCandidates(text, ends, from);
    forall k, j | 0 <= k < |ends| && from <= j < e ensures !OccursAt(text, ends[k], j) {
      match Find(text, ends[k], from)
      case None =>
      case Some(i) =>
        assert i in c;
    }
    if |c| > 0 {
      var i :| 0 <= i < |c| && c[i] == e;
      var k :| 0 <= k < |ends| && Find(text, ends[k], from) == Some(c[i]);
    }
  }

  /** With no end markers the section runs to the end of the text. */
  lemma NoEndMarkers(text: string, starts: seq<string>)
    ensures SectionBounds(text, starts, []).Some? ==> SectionBounds(text, starts, []).value.end == |text|
  {
  }

  /** The text of a section is a slice of the document. */
  lemma {:induction false} InSection(text: string, starts: seq<string>, ends: seq<string>, m: string, j: nat)
    requires |m| > 0 && OccursAt(FindSection(text, starts, ends), m, j)
    ensures SectionBounds(text, starts, ends).Some?
    ensures var b := SectionBounds(text, starts, ends).value;
      OccursAt(text, m, b.start + j) && b.start + j + |m| <= b.end
  {
    var sec := FindSection(text, starts, ends);
    assert SectionBounds(text, starts, ends).Some?;
    var b := SectionBounds(text, starts, ends).value;
    assert sec == text[b.start..b.end];
    forall i | 0 <= i < |m| ensures text[b.start + j + i] == m[i] {
      assert m[i] == sec[j + i];
    }
    assert text[b.start + j..b.start + j + |m|] == m;
  }

  /** No end marker occurs anywhere in the section text. */
  lemma SectionHasNoEndMarker(text: string, starts: seq<string>, ends: seq<string>, k: nat, j: nat)
    requires k < |ends| && |ends[k]| > 0
    ensures !OccursAt(FindSection(text, starts, ends), ends[k], j)
  {
    if OccursAt(FindSection(text, starts, ends), ends[k], j) {
      InSection(text, starts, ends, ends[k], j);
      var b := SectionBounds(text, starts, ends).value;
      SectionEndSpec(text, ends, b.start);
    }
  }
}

=== FILE: strs.dfy ===
/** The Python `str` operations the parser relies on: `find`, `strip`,
    `lstrip(chars)`, plus the run and filter helpers its proofs talk about. */
module Strs {
  import opened Wrappers
  import opened Chars

  /** `pat` occurs in `s` starting at index `i`. */
  predicate OccursAt(s: string, pat: string, i: nat) {
    i + |pat| <= |s| && s[i..i + |pat|] == pat
  }

  /** `s.find(pat, from)`: the lowest index at or after `from` where `pat`
      occurs, `None` for Python's -1. */
  function Find(s: string, pat: string, from: nat): (r: Option<nat>)
    ensures r.Some? ==> from <= r.value && OccursAt(s, pat, r.value)
    ensures r.Some? ==> forall j :: from <= j < r.value ==> !OccursAt(s, pat, j)
    ensures r.None? ==> forall j :: from <= j ==> !OccursAt(s, pat, j)
    decreases |s| - from
  {
    if from + |pat| > |s| then None
    else if s[from..from + |pat|] == pat then Some(from)
    else Find(s, pat, from + 1)
  }

  predicate AllSpace(s: string) {
    forall i :: 0 <= i < |s| ==> IsSpace(s[i])
  }

  /** `s` has no leading and no trailing whitespace. */
  predicate IsStripped(s: string) {
    |s| > 0 ==> !IsSpace(s[0]) && !IsSpace(s[|s| - 1])
  }

  /** The index where the run of `inClass` characters starting at `p` ends. */
  function RunEnd(s: string, p: nat, inClass: char -> bool): (q: nat)
    requires p <= |s|
    ensures p <= q <= |s|
    ensures p < |s| && inClass(s[p]) ==> p < q
    ensures forall k :: p <= k < q ==> inClass(s[k])
    ensures q < |s| ==> !inClass(s[q])
    decreases |s| - p
  {
    if p < |s| && inClass(s[p]) then RunEnd(s, p + 1, inClass) else p
  }

  /** Where `s.strip()` starts: after the leading whitespace. */
  function StripStart(s: string): nat {
    RunEnd(s, 0, IsSpace)
  }

  /** Scanning back from `q` towards `lo`, where the trailing whitespace begins. */
  function BackRun(s: string, lo: nat, q: nat): (r: nat)
    requires lo <= q <= |s|
    ensures lo <= r <= q
    ensures forall k :: r <= k < q ==> IsSpace(s[k])
    ensures lo < r ==> !IsSpace(s[r - 1])
    decreases q
  {
    if lo < q && IsSpace(s[q - 1]) then BackRun(s, lo, q - 1) else q
  }

  /** Where `s.strip()` stops. */
  function StripStop(s: string): nat
    ensures StripStart(s) <= StripStop(s) <= |s|
  {
    BackRun(s, StripStart(s), |s|)
  }

  /** `r` is `s` with the first `a` characters and the characters after
      `a + |r|` cut off, all of them whitespace, and `r` keeps no whitespace
      at either end. */
  predicate Trims(s: string, r: string, a: nat) {
    && a + |r| <= |s|
    && (forall i :: 0 <= i < |r| ==> r[i] == s[a + i])
    && (forall i :: 0 <= i < a ==> IsSpace(s[i]))
    && (forall i :: a + |r| <= i < |s| ==> IsSpace(s[i]))
    && IsStripped(r)
  }

  /** `s.strip()`. */
  function Strip(s: string): (r: string)
    ensures Trims(s, r, StripStart(s))
  {
    s[StripStart(s)..StripStop(s)]
  }

  /** Any trimming of `s` is `s.strip()`: the contract above fixes the result. */
  lemma TrimsUnique(s: string, r: string, a: nat)
    requires Trims(s, r, a)
    ensures r == Strip(s)
  {
    var r', a' := Strip(s), StripStart(s);
    assert |r| > 0 ==> s[a] == r[0] && s[a + |r| - 1] == r[|r| - 1];
    assert |r'| > 0 ==> s[a'] == r'[0] && s[a' + |r'| - 1] == r'[|r'| - 1];
    // An empty trimming leaves nothing but whitespace in `s`.
    assert |r| == 0 || |r'| == 0 ==> AllSpace(s);
    if |r| > 0 && |r'| > 0 {
      assert a == a';
      assert |r| == |r'|;
    }
  }

  /** Whitespace around a stripped text is exactly what `strip()` removes. */
  lemma StripSurrounded(u: string, m: string, w: string)
    requires AllSpace(u) && AllSpace(w) && IsStripped(m)
    ensures Strip(u + m + w) == m
  {
    var s := u + m + w;
    assert forall i :: 0 <= i < |m| ==> m[i] == s[|u| + i];
    TrimsUnique(s, m, |u|);
  }

  lemma ConcatAssoc(a: string, b: string, c: string)
    ensures a + (b + c) == a + b + c
  {
  }

  /** The whitespace `strip()` removes on either side. */
  lemma StripParts(s: string) returns (u: string, w: string)
    ensures s == u + Strip(s) + w && AllSpace(u) && AllSpace(w)
  {
    u, w := s[..StripStart(s)], s[StripStop(s)..];
    assert s == u + s[StripStart(s)..StripStop(s)] + w;
  }

  /** `s.strip()` is empty exactly when `s` is all whitespace. */
  lemma StripEmpty(s: string)
    ensures Strip(s) == [] <==> AllSpace(s)
  {
  }

  /** `s.lstrip(chars)`: drop the leading characters that belong to `chars`. */
  function LStripChars(s: string, chars: set<char>): (r: string)
    ensures |r| <= |s| && r == s[|s| - |r|..]
    ensures forall i :: 0 <= i < |s| - |r| ==> s[i] in chars
    ensures |r| > 0 ==> r[0] !in chars
    decreases |s|
  {
    if |s| > 0 && s[0] in chars then LStripChars(s[1..], chars) else s
  }

  /** The non-whitespace characters of `s`, in order. */
  function NonSpace(s: string): (r: string)
    ensures |r| <= |s|
    ensures forall i :: 0 <= i < |r| ==> !IsSpace(r[i])
  {
    if |s| == 0 then []
    else (if IsSpace(s[0]) then [] else [s[0]]) + NonSpace(s[1..])
  }

  lemma {:induction false} NonSpaceAppend(a: string, b: string)
    ensures NonSpace(a + b) == NonSpace(a) + NonSpace(b)
    decreases |a|
  {
    if |a| == 0 {
      assert a + b == b;
    } else {
      assert (a + b)[0] == a[0];
      assert (a + b)[1..] == a[1..] + b;
      NonSpaceAppend(a[1..], b);
    }
  }

  lemma {:induction false} NonSpaceAllSpace(s: string)
    ensures NonSpace(s) == [] <==> AllSpace(s)
    decreases |s|
  {
    if |s| > 0 {
      NonSpaceAllSpace(s[1..]);
      if AllSpace(s[1..]) && IsSpace(s[0]) {
        assert forall i :: 0 < i < |s| ==> s[i] == s[1..][i - 1];
      }
    }
  }

  /** A property of every character of `s` holds of every character of a suffix. */
  lemma SuffixKeeps(s: string, k: nat, P: char -> bool)
    requires k <= |s| && forall i :: 0 <= i < |s| ==> P(s[i])
    ensures forall i :: k <= i < |s| ==> P(s[i])
  {
  }

  /** Dropping a whitespace prefix keeps the non-whitespace characters. */
  lemma {:induction false} NonSpaceDropSpaces(s: string, k: nat)
    requires k <= |s| && forall i :: 0 <= i < k ==> IsSpace(s[i])
    ensures NonSpace(s[k..]) == NonSpace(s)
    decreases k
  {
    if k > 0 {
      assert s[1..][k - 1..] == s[k..];
      NonSpaceDropSpaces(s[1..], k - 1);
    }
  }

  /** `strip()` only removes whitespace. */
  lemma StripKeepsNonSpace(s: string)
    ensures NonSpace(Strip(s)) == NonSpace(s)
  {
    var u, w := StripParts(s);
    NonSpaceAppend(u + Strip(s), w);
    NonSpaceAppend(u, Strip(s));
    NonSpaceAllSpace(u);
    NonSpaceAllSpace(w);
  }
}

=== FILE: wrappers.dfy ===
/** The optional-value datatype used wherever the source returns -1, None or "no match". */
module Wrappers {

  datatype Option<+T> = None | Some(value: T)

}
